=== FILE: README.md ===
# Datacell shop ledger — a Dafny model

This project models the transactional core of the "datacell" repair-and-retail shop
application (`App.jsx`) and proves properties of it. There are four parts.

- **Inventory ledger**:
  - sale decrements that clamp at zero;
  - audited stock adjustments;
  - catalog add, edit and remove, with SKUs unique after trim and lower-case.
- **Cash journal** of one day: movements are put first in the list, and only an administrator can delete them.
- **Service-order lifecycle**:
  - creation, with the consent check;
  - the diagnostic-fee charge;
  - the diagnosis-only close;
  - status change and delivery;
  - admin deletion.
- **Reconciliation** (the cash view and the printed day report):
  - income, expenses and net;
  - the net split by payment method;
  - totals by kind;
  - the "balanced when off by less than 1" test.

It also covers the POS cart and checkout, the pattern-lock text (`parseSeq`, `addNode`) and the PIN pad.

The shop state is `Records.Shop(inventory, orders, day)`. Every operation is a pure function from a
state, plus the operator's inputs, to a new state. Failing operations return
`Common.Result.Err(e)` with the reason, so that "nothing changes" is the caller keeping the old state.

Some inputs are not computed by the model; they are passed in as parameters:
- identifiers and timestamps (`Stamp`, the ticket number, `now`);
- the admin gate (`isAdmin`);
- every `confirm` (a `bool`);
- every `prompt` (`Common.Reply`: `Cancel` or `Answer(text)`).

Money is a Dafny `real`, stock is an `int`, and a blank numeric form field is `Option.None`.

Modules:

| file | module | models |
|---|---|---|
| common.dfy | `Common` | Option, prompt replies, errors, Result, `filter` |
| text.dfy | `Text` | `trim`, `toLowerCase`, SKU keys, decimal text |
| records.dfy | `Records` | items, clients, movements, orders, the shop state |
| journal.dfy | `Journal` | `registrarMovimiento`, `deleteMovimiento` |
| inventory.dfy | `Inventory` | `descontarStock`, `ajustarStock`, the inventory view's add/edit/delete/adjust |
| pos.dfy | `Pos` | the POS cart (`add`) and checkout (`cobrar`) |
| orders.dfy | `Orders` | `totalGral`, `validarConsent`, `guardar`, `cobrarDiagnostico`, `cerrarComoDiagnostico`, `changeStatus`, `deleteOrden` |
| reconcile.dfy | `Reconcile` | `ViewCaja` and `PrintDayReport` aggregation |
| widgets.dfy | `Widgets` | `parseSeq`, `PatternLock.addNode`/`commit`, `PinPad.push`/`back` |

Where the code and the design description of the system disagree, the model follows the code:

- **Creation does not clamp the balance.** It is `total − advance` and can be negative (`Orders.CreateBalanceCanBeNegative`). The design promises `max(0, total − advance)` after every operation.
- **A diagnosis-only close without an applicable fee** sets the total to the advance, rather than leaving it unchanged.
- **Delivery sets the balance to 0** whatever amount was collected, and leaves total and advance as they were.
- **A status change has no guard.** Any status can be set from any status, including delivering twice, which deducts the parts from stock twice.
- **Reconciliation compares one sum.** The counted amounts are added up and compared with the net. There is no per-method comparison.
- **The catalog add checks the SKU and name untrimmed** (`!f.sku`), while the edit checks them trimmed.
- **Sale decrements match the first line only.** Each item loses the quantity of the FIRST line that names it, so a second line for the same part is not deducted (`Inventory.DuplicateLineDeductedOnce`).

## Model

| member | source | states |
|---|---|---|
| Journal.Record | App.jsx:150-158 | a recorded movement becomes the first of the day with the given stamp and entry, and the earlier movements follow unchanged and in order |
| Journal.DeleteMovement | App.jsx:189-193 | refused without the admin gate or without confirmation; otherwise the day keeps exactly the movements whose id differs from the deleted one |
| Journal.DeleteKeepsOrder | App.jsx:189-193 | the deletion keeps the day in order: deleting from a concatenation deletes from each part in turn, and a single movement is kept iff its id differs |
| Journal.RecordThenDelete | App.jsx:150-158 | deleting a movement just recorded under a fresh id gives back the day as it was |
| Inventory.Decrement | App.jsx:160-167 | every item named by some line (by id or invId) ends with max(0, stock − quantity of the first such line, blank read as 1); other items and all other fields are unchanged; non-negative stock stays non-negative |
| Inventory.DuplicateLineDeductedOnce | App.jsx:160-167 | two lines for the same part deduct it once |
| Inventory.Adjust | App.jsx:169-186 | a zero or non-numeric delta changes nothing; otherwise only the items with that id change, to max(0, stock + delta), and exactly one stock-audit movement with amount 0, method "—" and detail (invId, delta, reason) is put first in the day |
| Inventory.AdjustKeepsStockNonNegative | App.jsx:169-186 | an adjustment never makes a stock negative |
| Inventory.AdjustThenUndo | App.jsx:169-186 | +n followed by −n restores every stock and leaves both movements on record |
| Inventory.DoAdjust | App.jsx:1232-1240 | refused without the admin gate, without a chosen item, or with a zero or non-numeric delta, and carried out otherwise; a carried-out form is exactly the adjustment, with a blank reason replaced by "Ajuste manual" |
| Inventory.DoAdjustThenUndo | App.jsx:1232-1240 | through the admin form, +n then −n is accepted twice, keeps stock non-negative, restores every stock and leaves both movements on record |
| Inventory.AddItem | App.jsx:1179-1182 | refused iff SKU or name is empty, or, with both present, iff an existing SKU equals the new one after trim and lower-case; it succeeds in every other case, and then the new item, with blank stock fields read as 0, goes first and the rest follows unchanged |
| Inventory.AddKeepsSkusUnique | App.jsx:1179-1182 | a successful add keeps SKUs unique after trim and lower-case |
| Inventory.AddRefusesVariantSku | App.jsx:1181 | an existing SKU re-entered in any other letter case and with surrounding blanks is refused as a duplicate |
| Inventory.EditItem | App.jsx:1205-1230 | refused without the admin gate or without an item; refused iff SKU or name is blank after trim; then refused iff ANOTHER item has an equal normalised SKU; it succeeds in every other case, and then exactly the items with that id are replaced by the edited item |
| Inventory.EditKeepsSkusUnique | App.jsx:1210-1230 | with unique ids, a successful edit keeps SKUs and ids unique |
| Inventory.RemoveItem | App.jsx:1199-1203 | refused without the admin gate or confirmation; otherwise the catalog keeps exactly the items with another id |
| Inventory.RemoveKeepsOrder | App.jsx:1199-1203 | the removal keeps the catalog in order: removing from a concatenation removes from each part in turn, and a single item is kept iff its id differs |
| Inventory.AddThenRemove | App.jsx:1199-1203 | removing an item just added under a fresh id gives back the catalog |
| Pos.CartAdd | App.jsx:403-412 | an item already in the cart is refused iff its line holds the whole stock, else that line grows by one; a new item is refused iff its stock is below 1, else it is appended with quantity 1 |
| Pos.CartTotal | App.jsx:401 | an empty cart totals 0, and a cart of non-negative prices and quantities never totals below 0 |
| Pos.CartAddWithinStock | App.jsx:403-412 | successful adds keep one line per item, and every line's quantity stays between 1 and the item's stock |
| Pos.CartAddRaisesTotal | App.jsx:401-412 | each successful add raises the cart total by exactly the unit price of the item's line |
| Pos.Checkout | App.jsx:414-428 | refused iff the cart is empty; otherwise one sale movement is put first with the given stamp, for the cart total, with the chosen method, the found client (the walk-in client when none is found) and the cart as detail, and the catalog becomes the cart's decrement; orders are untouched |
| Pos.CheckoutDeductsExactly | App.jsx:414-428 | a well-formed cart within stock is deducted exactly, without clamping, and items not in the cart keep their stock |
| Orders.PartsTotalAppend | App.jsx:546-547 | adding a part line raises the order total by price × quantity, and by the price for a quantity-1 catalog pick |
| Orders.DuplicatePartChargedTwiceDeductedOnce | App.jsx:546 | a part listed twice is charged twice in the total but deducted once on delivery |
| Orders.ConsentValid | App.jsx:549-556 | a consent that is not required is valid; a required one is valid iff it is accepted and the signer's name, ID and signature are non-empty after trim |
| Orders.OrderTotal | App.jsx:547 | blank labor and logistics add nothing to the parts total, and with non-negative amounts the total is at least the parts total, which is non-negative |
| Orders.FeeAmount | App.jsx:581 | when an order is saved, a falsy fee field (blank, or the number 0) is stored as 50, and a typed amount, a typed "0" included, is stored as typed |
| Orders.FeeDue | App.jsx:628 | when the fee is charged or billed, a stored 0 reads as 50 and any other stored amount is kept, so the fee due is never 0 |
| Orders.ZeroFeeChargesDefault | App.jsx:581 | a fee typed as "0" is stored as 0, yet charging that order records a movement of 50 |
| Orders.StoredAccess | App.jsx:565-572 | credentials are stored verbatim only when the customer allowed it; otherwise every credential is dropped, the note says they were not kept, and only the lock type (default "Ninguno") and backup flag are kept |
| Orders.Create | App.jsx:558-604 | refused iff client, IMEI or fault is missing, or the consent (not required, or accepted with signer name, ID and signature non-blank) is invalid; otherwise the order goes first in status Received with the found client, the form's technician, IMEI, work, labor, logistics, parts and advance method, the consent stamped with the time, the fee as saved, the stored access, total = labor + Σ price × qty + logistics and balance = total − advance; a service movement with the given stamp and the found client is recorded iff the advance is positive |
| Orders.CreateBalanceCanBeNegative | App.jsx:596 | an advance above the total gives a negative balance |
| Orders.CreateThenDelete | App.jsx:558-604 | deleting an order just created under a fresh ticket gives back the orders and the catalog |
| Orders.Charge | App.jsx:622-657 | refused for an unknown order, a fee that does not apply, a fee already charged, or a cancelled method prompt; otherwise one service movement of the fee with the given stamp and the order's client, and every order with that id gets the fee added to its advance, balance = max(0, total − advance), the advance method filled in if blank, the fee marked charged with method and time, every other field kept; other orders untouched |
| Orders.ChargeTwiceRefused | App.jsx:622-627 | after a successful charge any further charge of that order is refused |
| Orders.ChargeOnClose | App.jsx:664-668 | the close charges the fee (the charge going through) exactly when it applies, is uncharged, and the operator agrees and answers the method prompt; otherwise the shop is unchanged |
| Orders.Close | App.jsx:659-693 | the close as written: refused for an unknown order or without confirmation, carried out otherwise |
| Orders.CloseFrame | App.jsx:659-693 | a confirmed close leaves the catalog and every other order unchanged, and records one movement of the fee iff it charged |
| Orders.CloseEffect | App.jsx:670-689 | the closed order is Voided with total = max(fee if it applies, pre-charge advance) and balance = max(0, total − pre-charge advance); when the close charged, its advance includes the fee, its fee is marked charged with the method and time, and a blank advance method takes the charge's method; otherwise fee, advance and advance method are unchanged; apart from the diagnosis every other field is kept |
| Orders.CloseFillsDiagnosis | App.jsx:683-686 | a blank diagnosis becomes the default note, and a written one is kept |
| Orders.CloseChargeLeavesStaleBalance | App.jsx:667-679 | as written, closing with the fee charged from the close leaves advance = total = balance = fee |
| Orders.CloseFixed | App.jsx:659-693 | the corrected close: refused for an unknown order or without confirmation |
| Orders.CloseFixedKeepsBalanceRule | App.jsx:659-693 | the corrected close leaves total = max(fee if it applies, advance after the charge) and balance = max(0, total − advance) |
| Orders.CloseFixedPathIndependent | App.jsx:659-693 | with the corrected close, charging from the close or charging just before it gives the same shop |
| Orders.ChangeStatus | App.jsx:703-720 | a status other than Delivered changes only the status of the order; delivery is refused iff either prompt is cancelled, and otherwise deducts the order's parts, records one service movement of the entered amount (blank read as 0) with the given stamp and the order's client, and sets status Delivered and balance 0, leaving everything else of the order |
| Orders.ChangeStatusKeeps | App.jsx:703-720 | a status change keeps non-negative stock non-negative and keeps every order's id, total, advance, parts and fee |
| Orders.RedeliveryDeductsAgain | App.jsx:703-720 | delivering an order a second time is accepted and deducts its parts from stock again |
| Orders.RepairScenario | App.jsx:546-720 | parts 50 × 2 plus labor 40 give total and balance 140; delivering for 140 deducts 2 units (clamped), records 140 and leaves the order Delivered with balance 0 |
| Orders.DeleteOrder | App.jsx:695-701 | refused without the admin gate, for an unknown order, or without confirmation; otherwise catalog and day are unchanged and the orders are those with another id, kept in order (`Remaining`) |
| Orders.RemainingKeepsOrder | App.jsx:700 | the orders left by a deletion keep their order: taking from a concatenation takes from each part in turn, and a single order is kept iff its id differs |
| Reconcile.NetIsSignedSum | App.jsx:1586-1588 | the net is the sum of amounts with expenses counted negative |
| Reconcile.RecordMovesNet | App.jsx:1586-1588 | recording a movement moves the net by its signed amount, and income or expenses by its amount |
| Reconcile.AddToTotal | App.jsx:1595-1602 | adding to a bucket raises the sum of all buckets by the amount |
| Reconcile.AddToLookup | App.jsx:1595-1602 | adding to bucket k raises k by the amount and leaves every other key |
| Reconcile.AddToKeys | App.jsx:1595-1602 | adding never duplicates a key, and adds exactly key k |
| Reconcile.TallyHasKey | App.jsx:1595-1602 | a tally holds exactly the keys it started with and the keys of the amounts it was given |
| Reconcile.ByMethod | App.jsx:1593-1606 | the buckets start with the five preset methods Efectivo, Yape/Plin, Transferencia, Tarjeta and "—" in that order (JavaScript's listing order differs for integer-like method names, see Left out); a key is present iff it is a preset or the method (blank read as "—") of some movement, and no key appears twice |
| Reconcile.BucketsSumToNet | App.jsx:1592-1606 | the method buckets add up to the net |
| Reconcile.ByMethodLookup | App.jsx:1592-1606 | the bucket of a method holds the signed sum of the movements paid with it (blank method under "—"), keys unique |
| Reconcile.ReportByMethod | App.jsx:1881-1889 | the printed report's buckets by method start empty: a method has a bucket iff some movement used it (blank read as "—"), once, holding the signed sum of those movements |
| Reconcile.ReportAgreesWithView | App.jsx:1881-1889 | the printed report and the cash view give every method the same figure, and both total the day's net |
| Reconcile.ByKind | App.jsx:1875-1879 | each kind's bucket holds the sum of the amounts of the movements of that kind; a kind has a bucket iff some movement of the day is of that kind, and no kind has two |
| Reconcile.ByKindAgrees | App.jsx:1871-1879 | the report's expense bucket is the expenses, all kind buckets add to income + expenses, keys unique |
| Reconcile.Count | App.jsx:1584-1591 | income and expenses are the day's, counted is the sum of the counted fields (blank read as 0), net = income − expenses, difference = counted − net, balanced iff counted lies strictly within 1 of the net |
| Reconcile.BalancedAgainstBuckets | App.jsx:1590-1606 | balanced iff the counted sum is within 1 of the sum of the method buckets |
| Reconcile.CashScenario | App.jsx:1584-1606 | a cash sale of 100 and a cash expense of 30, 70 counted: net 70, cash bucket 70, balanced |
| Widgets.ParsePatternText | App.jsx:2031-2034 | the text a pattern of nodes 1–9 is committed as reads back, through `parseSeq`, as the same pattern |
| Widgets.PatternText | App.jsx:2031-2034 | the committed text is empty iff the pattern is |
| Widgets.ParseSeq | App.jsx:2139-2145 | empty text is the empty pattern, and every parsed node is between 1 and 9 |
| Widgets.Nodes | App.jsx:2142-2144 | every kept number is a node 1–9, and a node is kept iff some piece reads as it |
| Widgets.NodesPieceByPiece | App.jsx:2142-2144 | pieces are read in order: reading a concatenation reads each part in turn, and a single piece gives its node or nothing |
| Widgets.ParseSeqPieceByPiece | App.jsx:2139-2145 | a text is read as its piece before the first dash followed by the reading of the rest; a text without a dash is one piece |
| Widgets.ParseSeqSkipsJunk | App.jsx:2139-2145 | a piece that is not a node, between two nodes (as in "1-x-3"), is skipped and leaves the two nodes |
| Widgets.AddNode | App.jsx:2036-2042 | the node is appended iff it is a node, differs from the last one, and (with repeats off) is not drawn yet; otherwise nothing is committed |
| Widgets.AddNodeKeepsShape | App.jsx:2036-2042 | a drawn pattern never has a node twice in a row, and with repeats off never twice at all |
| Widgets.AddNodeCommits | App.jsx:2031-2042 | drawing a node commits a text that reads back as the longer pattern |
| Widgets.Push | App.jsx:1955-1958 | a character is added iff the value is below the cap |
| Widgets.Back | App.jsx:1959 | the last character is removed; an empty value stays empty |
| Widgets.Typed | App.jsx:1965 | typed text is cut to a prefix of itself: text within the cap is kept whole, longer text to exactly its first maxLen characters |
| Widgets.TypedIdempotent | App.jsx:1965 | cutting already-cut text changes nothing |
| Widgets.PadWithinCap | App.jsx:1955-1959 | a value within the cap stays within it, and back undoes push |
| Text.KeyIgnoresPadding | App.jsx:1181 | SKU keys ignore white space around the code |
| Text.KeyIgnoresCase | App.jsx:1181 | SKU keys ignore letter case, and a key is its own key |
| Text.ParseNatToString | App.jsx:2033 | reading back a rendered whole number gives the number |

## Left out

- Rendering, styling, modals and print layout: these are presentation only.
- Persistence: localStorage, backup and import are I/O. The state is an in-memory value.
- The admin PIN login and change: modelled only as the `isAdmin` flag.
- Identifier and clock generation (`Date.now`, `Math.random`, locale times): these are parameters.
- Alert texts are left out. Movement descriptions are built as in the source, but no contract states them.
- The full client snapshot stored by a checkout (`{id, nombre, dni, telefono}` or "Público General"): the model stores the found client or a walk-in client record.
- Floating-point arithmetic: money is an exact `real`, so rounding of JS Number sums is not modelled.
- NaN inputs:
  - The stock-adjustment delta models NaN as `None`, which is refused.
  - Other numeric fields are either a number or blank.
- `String(...)` conversions of ids, and `String(undefined)` for a missing `invId`: ids are strings throughout.
- Text.IsSpace: knows the ASCII and Latin-1 white space plus U+2028, U+2029 and U+FEFF. The other Unicode space separators that JavaScript's `trim` removes are not listed.
- Text.LowerChar: lower-cases ASCII and Latin-1 capitals only. Full Unicode case mapping is not modelled.
- Widgets.PieceValue: reads only pieces of plain decimal digits. JavaScript's `Number` also accepts surrounding blanks, a sign, decimals (a piece "3.5" is kept as 3.5), exponents and hexadecimal, and those pieces are not modelled.
- Inventory.Adjust, Inventory.AddItem, Inventory.EditItem: stock, minimum stock and the adjustment delta are whole numbers (`int`). The code reads them with `Number(...)` from free-text inputs, so it also takes decimal stock and decimal deltas. Those are not modelled.
- Widgets.Typed: assumes a non-negative cap. Every caller passes 32 or the default of 32.
- Widgets.Push, Widgets.Back, Widgets.Typed: lengths count Unicode scalar values. JavaScript's `.length` and `slice` count UTF-16 code units. For a character above U+FFFF, such as an emoji, the code refuses `push` one character earlier, `back` leaves half of a surrogate pair, and `slice(0, maxLen)` can split a pair. None of this is modelled.
- Reconcile.ByMethod: the model keeps keys in insertion order. A JavaScript object lists integer-like keys first, in numeric order. The payment method is free text from a prompt, so a method typed as "2" would be listed before "Efectivo". The sums are unaffected.
- Pattern-lock pointer geometry (`nearestNode`, floating-point distances) and signature drawing: the widgets' outputs are parameters.
- The clients, quick-service and expense views: they only record movements through `Journal.Record` and are outside this core.

## Findings

| source | as written | input that shows it | evidently intended | confidence | as-written member | corrected member |
|---|---|---|---|---|---|---|
| App.jsx:659-693 | `cerrarComoDiagnostico` reads the order before it calls `cobrarDiagnostico`, then computes the total and balance from that stale copy (`adel` predates the charge). Meanwhile the update it applies keeps the charged advance (`...x`). | An order whose fee applies (50) with advance 0 is closed and the charge is accepted. The result is advance 50, total 50, balance 50, so the customer appears to owe the fee just paid. | Compute from the order after the charge: total 50, balance 0, which is the diagnosis-only outcome the design describes. | high (not executed) | Orders.CloseChargeLeavesStaleBalance | Orders.CloseFixedKeepsBalanceRule |

=== FILE: common.dfy ===
/** Failure-carrying wrappers shared by every ledger operation. */
module Common {

  /** A value that may be absent: a blank form field, a lookup that found nothing. */
  datatype Option<+T> = None | Some(value: T) {

    /** The value, or `default` when absent (the `x || default` idiom of the shop). */
    function GetOr(default: T): T {
      match this
      case Some(v) => v
      case None => default
    }
  }

  /** The answer to an interactive prompt: the operator either cancels it or types something. */
  datatype Reply<+T> = Cancel | Answer(value: T)

  /** Why an operation refused to change anything. */
  datatype Error =
    | NotAdmin            // an admin-only operation without the admin gate
    | Cancelled           // the operator declined a confirmation or cancelled a prompt
    | Missing             // a mandatory field is empty
    | DuplicateSku        // the SKU already belongs to another item
    | NotFound            // no record carries the given identifier
    | InsufficientStock   // the cart already holds all the stock of an item
    | OutOfStock          // the item has no stock at all
    | EmptyCart           // checkout of an empty cart
    | ConsentMissing      // the signed consent declaration is incomplete
    | FeeNotApplicable    // the order has no diagnostic fee
    | FeeAlreadyCharged   // the diagnostic fee was charged before
    | InvalidDelta        // a stock adjustment of zero or of something that is not a number

  /** The outcome of an operation: the new value, or the reason nothing changed. */
  datatype Result<+T> = Ok(value: T) | Err(error: Error)

  /** The elements of `s` that `keep` accepts, in their order (`Array.prototype.filter`). */
  function Filter<T(!new)>(s: seq<T>, keep: T -> bool): (r: seq<T>)
    ensures |r| <= |s|
    ensures forall x :: x in r <==> x in s && keep(x)
  {
    if s == [] then [] else (if keep(s[0]) then [s[0]] else []) + Filter(s[1..], keep)
  }

  /** Filtering keeps everything when nothing is rejected. */
  lemma {:induction false} FilterKeepsAll<T(!new)>(s: seq<T>, keep: T -> bool)
    requires forall x :: x in s ==> keep(x)
    ensures Filter(s, keep) == s
  {
    if s != [] {
      FilterKeepsAll(s[1..], keep);
    }
  }

  /** Filtering keeps order and multiplicity: it works element by element, each kept
      element staying where it was relative to the others. */
  lemma {:induction false} FilterKeepsOrder<T(!new)>(a: seq<T>, b: seq<T>, x: T, keep: T -> bool)
    ensures Filter(a + b, keep) == Filter(a, keep) + Filter(b, keep)
    ensures Filter([x], keep) == if keep(x) then [x] else []
  {
    assert [x][1..] == [];
    if a == [] {
      assert a + b == b;
    } else {
      assert (a + b)[1..] == a[1..] + b;
      FilterKeepsOrder(a[1..], b, x, keep);
    }
  }

  function Max(a: real, b: real): (r: real)
    ensures r >= a && r >= b
    ensures r == a || r == b
  {
    if a >= b then a else b
  }

  function MaxInt(a: int, b: int): (r: int)
    ensures r >= a && r >= b
    ensures r == a || r == b
  {
    if a >= b then a else b
  }

  function Abs(x: real): (r: real)
    ensures r >= 0.0
    ensures r == x || r == -x
  {
    if x < 0.0 then -x else x
  }
}

=== FILE: inventory.dfy ===
/** The inventory ledger: the catalog, sale decrements, audited stock adjustments, and the
    admin-gated catalog edits that keep SKUs unique. */
module Inventory {
  import opened Common
  import opened Text
  import opened Records
  import Journal

  // ---------- invariants of the catalog ----------

  predicate StockNonNegative(inv: seq<Item>) {
    forall i :: 0 <= i < |inv| ==> inv[i].stock >= 0
  }

  predicate IdsUnique(inv: seq<Item>) {
    forall i, j :: 0 <= i < j < |inv| ==> inv[i].id != inv[j].id
  }

  /** No two items share a SKU once trimmed and lower-cased. */
  predicate SkusUnique(inv: seq<Item>) {
    forall i, j :: 0 <= i < j < |inv| ==> Key(inv[i].sku) != Key(inv[j].sku)
  }

  // ---------- sale decrement ----------

  /** `cantidad || 1`: an absent (or zero) quantity counts as one unit. */
  function LineQty(l: Line): (q: int)
    ensures q != 0
    ensures l.qty != 0 ==> q == l.qty
  {
    if l.qty == 0 then 1 else l.qty
  }

  /** Line `j` is the first of `lines` that refers to item `id`. */
  predicate FirstMatchAt(lines: seq<Line>, id: string, j: int) {
    && 0 <= j < |lines|
    && lines[j].Matches(id)
    && forall k :: 0 <= k < j ==> !lines[k].Matches(id)
  }

  predicate NoMatch(lines: seq<Line>, id: string) {
    forall k :: 0 <= k < |lines| ==> !lines[k].Matches(id)
  }

  /** `Array.prototype.find` over `lines[from..]` for a line referring to item `id`. */
  function FindLine(lines: seq<Line>, id: string, from: nat): (r: Option<nat>)
    requires from <= |lines|
    requires forall k :: 0 <= k < from ==> !lines[k].Matches(id)
    ensures r.Some? ==> FirstMatchAt(lines, id, r.value)
    ensures r.None? ==> NoMatch(lines, id)
    decreases |lines| - from
  {
    if from == |lines| then None
    else if lines[from].Matches(id) then Some(from)
    else FindLine(lines, id, from + 1)
  }

  function DecrementItem(it: Item, lines: seq<Line>): Item {
    match FindLine(lines, it.id, 0)
    case None => it
    case Some(j) => it.(stock := MaxInt(0, it.stock - LineQty(lines[j])))
  }

  /** Takes the sold quantities out of the catalog: every item that some line refers to
      loses the quantity of the FIRST such line, clamped at zero; any other item, and
      every field but the stock, stays as it was. */
  function Decrement(inv: seq<Item>, lines: seq<Line>): (r: seq<Item>)
    ensures |r| == |inv|
    ensures forall i :: 0 <= i < |inv| ==> r[i] == inv[i].(stock := r[i].stock)
    ensures forall i, j :: 0 <= i < |inv| && FirstMatchAt(lines, inv[i].id, j) ==>
              r[i].stock == MaxInt(0, inv[i].stock - LineQty(lines[j]))
    ensures forall i :: 0 <= i < |inv| && NoMatch(lines, inv[i].id) ==> r[i] == inv[i]
    ensures forall i :: 0 <= i < |inv| && !NoMatch(lines, inv[i].id) ==> r[i].stock >= 0
    ensures StockNonNegative(inv) ==> StockNonNegative(r)
  {
    seq(|inv|, i requires 0 <= i < |inv| => DecrementItem(inv[i], lines))
  }

  /** A second line for the same part is not deducted: an order holding the same part
      twice leaves the stock one unit lower, not two. */
  lemma DuplicateLineDeductedOnce(it: Item, l: Line)
    requires l.Matches(it.id) && l.qty == 1 && it.stock >= 2
    ensures Decrement([it], [l, l])[0].stock == it.stock - 1
  {
    assert FirstMatchAt([l, l], it.id, 0);
  }

  // ---------- stock adjustment ----------

  /** `Number(delta || 0)`, with `None` standing for an entry that is not a number. */
  function DeltaOf(delta: Option<int>): int {
    delta.GetOr(0)
  }

  function AdjustmentText(invId: string, d: int, reason: string): string {
    "Ajuste stock (" + (if d > 0 then "+" else "") + IntToString(d) + ") — "
    + (if reason == "" then "sin motivo" else reason) + " — Item " + invId
  }

  /** Applies a signed stock adjustment to item `invId` and audits it in the journal.
      A zero or non-numeric delta changes nothing and records nothing. */
  function Adjust(shop: Shop, invId: string, delta: Option<int>, reason: string, st: Stamp): (r: Shop)
    ensures DeltaOf(delta) == 0 ==> r == shop
    ensures r.orders == shop.orders
    ensures |r.inventory| == |shop.inventory|
    ensures forall i :: 0 <= i < |shop.inventory| && shop.inventory[i].id != invId ==>
              r.inventory[i] == shop.inventory[i]
    ensures DeltaOf(delta) != 0 ==>
              && (forall i :: 0 <= i < |shop.inventory| && shop.inventory[i].id == invId ==>
                    r.inventory[i] == shop.inventory[i].(stock := MaxInt(0, shop.inventory[i].stock + DeltaOf(delta))))
              && |r.day| == |shop.day| + 1
              && r.day[1..] == shop.day
              && r.day[0].stamp == st
              && r.day[0].entry.kind == StockAudit
              && r.day[0].entry.payMethod == NoMethod
              && r.day[0].entry.amount == 0.0
              && r.day[0].entry.detail == Adjustment(invId, DeltaOf(delta), reason)
  {
    var d := DeltaOf(delta);
    if d == 0 then shop
    else
      var inv := seq(|shop.inventory|, i requires 0 <= i < |shop.inventory| =>
                   var it := shop.inventory[i];
                   if it.id == invId then it.(stock := MaxInt(0, it.stock + d)) else it);
      var e := Entry(StockAudit, NoMethod, 0.0, AdjustmentText(invId, d, reason), None, Adjustment(invId, d, reason));
      shop.(inventory := inv, day := Journal.Record(shop.day, st, e))
  }

  /** An adjustment never drives a stock below zero. */
  lemma AdjustKeepsStockNonNegative(shop: Shop, invId: string, delta: Option<int>, reason: string, st: Stamp)
    requires StockNonNegative(shop.inventory)
    ensures StockNonNegative(Adjust(shop, invId, delta, reason, st).inventory)
  {
  }

  /** Undoing an adjustment: an entry of +n followed by one of -n restores every stock,
      and both steps stay on record in the journal. */
  lemma AdjustThenUndo(shop: Shop, invId: string, n: int, reason: string, st1: Stamp, st2: Stamp)
    requires n > 0
    requires StockNonNegative(shop.inventory)
    ensures var s2 := Adjust(Adjust(shop, invId, Some(n), reason, st1), invId, Some(-n), reason, st2);
            && s2.inventory == shop.inventory
            && |s2.day| == |shop.day| + 2
            && s2.day[2..] == shop.day
  {
    var s1 := Adjust(shop, invId, Some(n), reason, st1);
    var s2 := Adjust(s1, invId, Some(-n), reason, st2);
    assert |s2.inventory| == |shop.inventory|;
    forall i | 0 <= i < |shop.inventory|
      ensures s2.inventory[i] == shop.inventory[i]
    {
    }
  }

  /** The admin form of the adjustment (`doAjuste`): admin only, an item must be chosen,
      the delta must be a non-zero number, and a blank reason reads "Ajuste manual". */
  function DoAdjust(shop: Shop, isAdmin: bool, invId: string, delta: Option<int>, reason: string, st: Stamp): (r: Result<Shop>)
    ensures !isAdmin ==> r == Err(NotAdmin)
    ensures isAdmin && invId == "" ==> r == Err(Missing)
    ensures isAdmin && invId != "" && DeltaOf(delta) == 0 ==> r == Err(InvalidDelta)
    ensures r.Ok? <==> isAdmin && invId != "" && DeltaOf(delta) != 0
    ensures r.Ok? ==> r.value == Adjust(shop, invId, delta, if reason == "" then "Ajuste manual" else reason, st)
  {
    if !isAdmin then Err(NotAdmin)
    else if invId == "" then Err(Missing)
    else if DeltaOf(delta) == 0 then Err(InvalidDelta)
    else Ok(Adjust(shop, invId, delta, if reason == "" then "Ajuste manual" else reason, st))
  }

  /** Through the admin form too, an entry of +n followed by one of -n restores every stock,
      leaves both entries on record, and never drives a stock below zero. */
  lemma DoAdjustThenUndo(shop: Shop, invId: string, n: int, reason: string, st1: Stamp, st2: Stamp)
    requires invId != "" && n > 0
    requires StockNonNegative(shop.inventory)
    ensures DoAdjust(shop, true, invId, Some(n), reason, st1).Ok?
    ensures var s1 := DoAdjust(shop, true, invId, Some(n), reason, st1).value;
            && StockNonNegative(s1.inventory)
            && DoAdjust(s1, true, invId, Some(-n), reason, st2).Ok?
            && var s2 := DoAdjust(s1, true, invId, Some(-n), reason, st2).value;
               && s2.inventory == shop.inventory
               && |s2.day| == |shop.day| + 2 && s2.day[2..] == shop.day
  {
    var why := if reason == "" then "Ajuste manual" else reason;
    AdjustKeepsStockNonNegative(shop, invId, Some(n), why, st1);
    AdjustThenUndo(shop, invId, n, why, st1, st2);
  }

  // ---------- catalog entry, edit and removal ----------

  /** Some item's SKU equals `sku` once both are trimmed and lower-cased. */
  predicate SkuTaken(inv: seq<Item>, sku: string) {
    exists i :: 0 <= i < |inv| && Key(inv[i].sku) == Key(sku)
  }

  /** An item other than `id` already has the SKU `sku`. */
  predicate SkuTakenByOther(inv: seq<Item>, id: string, sku: string) {
    exists i :: 0 <= i < |inv| && inv[i].id != id && Key(inv[i].sku) == Key(sku)
  }

  /** The catalog form turned into an item: blank stock fields become 0. */
  function FromDraft(id: string, d: ItemDraft): (it: Item)
    ensures it.id == id && it.sku == d.sku && it.name == d.name
    ensures it.stock == d.stock.GetOr(0) && it.stockMin == d.stockMin.GetOr(0)
    ensures it.cost == d.cost && it.price == d.price
  {
    Item(id, d.sku, d.name, d.category, d.quality, d.cost, d.price,
         d.stock.GetOr(0), d.stockMin.GetOr(0), d.location, d.compat, d.supplier, d.note)
  }

  /** Adds a catalog item (`ViewInventario.add`). SKU and name must be non-empty (not
      trimmed), and no existing SKU may equal the new one after trim and lower-case. The
      new item goes first. */
  function AddItem(inv: seq<Item>, d: ItemDraft, newId: string): (r: Result<seq<Item>>)
    ensures r == Err(Missing) <==> d.sku == "" || d.name == ""
    ensures r == Err(DuplicateSku) <==> d.sku != "" && d.name != "" && SkuTaken(inv, d.sku)
    ensures r.Ok? <==> d.sku != "" && d.name != "" && !SkuTaken(inv, d.sku)
    ensures r.Ok? ==> |r.value| == |inv| + 1 && r.value[1..] == inv
    ensures r.Ok? ==> r.value[0] == FromDraft(newId, d)
  {
    if d.sku == "" || d.name == "" then Err(Missing)
    else if SkuTaken(inv, d.sku) then Err(DuplicateSku)
    else Ok([FromDraft(newId, d)] + inv)
  }

  /** A successful add keeps SKUs unique. */
  lemma AddKeepsSkusUnique(inv: seq<Item>, d: ItemDraft, newId: string)
    requires SkusUnique(inv)
    requires AddItem(inv, d, newId).Ok?
    ensures SkusUnique(AddItem(inv, d, newId).value)
  {
    var r := AddItem(inv, d, newId).value;
    forall i, j | 0 <= i < j < |r|
      ensures Key(r[i].sku) != Key(r[j].sku)
    {
      if i == 0 {
        assert r[j] == inv[j - 1];
      } else {
        assert r[i] == inv[i - 1] && r[j] == inv[j - 1];
      }
    }
  }

  /** Adding an existing SKU in any other letter case, or with surrounding blanks, is
      refused. */
  lemma AddRefusesVariantSku(inv: seq<Item>, k: nat, d: ItemDraft, newId: string, before: string, s: string, after: string)
    requires k < |inv| && d.name != "" && d.sku != ""
    requires AllSpace(before) && AllSpace(after)
    requires d.sku == before + s + after && Lower(s) == Lower(inv[k].sku)
    ensures AddItem(inv, d, newId) == Err(DuplicateSku)
  {
    KeyIgnoresPadding(before, s, after);
    KeyIgnoresCase(s);
    KeyIgnoresCase(inv[k].sku);
    assert Key(inv[k].sku) == Key(d.sku);
    assert SkuTaken(inv, d.sku);
  }

  /** Saves the admin edit of item `id` (`openEdit` + `saveEdit`): SKU and name must be
      non-blank, and no OTHER item may have an equal SKU. Every item with that identifier
      is replaced by the edited one, with blank stock fields read as 0; an unknown
      identifier changes nothing. */
  function EditItem(inv: seq<Item>, isAdmin: bool, id: string, e: ItemDraft): (r: Result<seq<Item>>)
    ensures !isAdmin ==> r == Err(NotAdmin)
    ensures isAdmin && id == "" ==> r == Err(NotFound)
    ensures isAdmin && id != "" ==>
              (r == Err(Missing) <==> IsBlank(e.sku) || IsBlank(e.name))
    ensures isAdmin && id != "" && !IsBlank(e.sku) && !IsBlank(e.name) ==>
              (r == Err(DuplicateSku) <==> SkuTakenByOther(inv, id, e.sku))
    ensures r.Ok? <==> isAdmin && id != "" && !IsBlank(e.sku) && !IsBlank(e.name) && !SkuTakenByOther(inv, id, e.sku)
    ensures r.Ok? ==> |r.value| == |inv|
    ensures r.Ok? ==> forall i :: 0 <= i < |inv| ==>
              r.value[i] == (if inv[i].id == id then FromDraft(id, e) else inv[i])
  {
    if !isAdmin then Err(NotAdmin)
    else if id == "" then Err(NotFound)
    else if IsBlank(e.sku) || IsBlank(e.name) then Err(Missing)
    else if SkuTakenByOther(inv, id, e.sku) then Err(DuplicateSku)
    else Ok(seq(|inv|, i requires 0 <= i < |inv| => if inv[i].id == id then FromDraft(id, e) else inv[i]))
  }

  /** With unique identifiers, a successful edit keeps SKUs unique. */
  lemma EditKeepsSkusUnique(inv: seq<Item>, isAdmin: bool, id: string, e: ItemDraft)
    requires IdsUnique(inv) && SkusUnique(inv)
    requires EditItem(inv, isAdmin, id, e).Ok?
    ensures SkusUnique(EditItem(inv, isAdmin, id, e).value)
    ensures IdsUnique(EditItem(inv, isAdmin, id, e).value)
  {
    var r := EditItem(inv, isAdmin, id, e).value;
    assert !SkuTakenByOther(inv, id, e.sku);
    forall i, j | 0 <= i < j < |r|
      ensures Key(r[i].sku) != Key(r[j].sku) && r[i].id != r[j].id
    {
      var a, b := inv[i], inv[j];
      assert a.id != b.id;
      if a.id == id {
        assert r[i].sku == e.sku && r[j] == b;
      } else if b.id == id {
        assert r[j].sku == e.sku && r[i] == a;
      } else {
        assert r[i] == a && r[j] == b;
      }
    }
  }

  /** `Array.prototype.filter` test of the removal. */
  function NotItem(id: string): Item -> bool {
    (x: Item) => x.id != id
  }

  /** The admin-only removal of an item, after confirmation. */
  function RemoveItem(inv: seq<Item>, isAdmin: bool, confirmed: bool, id: string): (r: Result<seq<Item>>)
    ensures !isAdmin ==> r == Err(NotAdmin)
    ensures r.Ok? <==> isAdmin && confirmed
    ensures r.Ok? ==> forall x :: x in r.value <==> x in inv && x.id != id
  {
    if !isAdmin then Err(NotAdmin)
    else if !confirmed then Err(Cancelled)
    else Ok(Filter(inv, NotItem(id)))
  }

  /** The removal keeps the catalog in order: it goes item by item, each item with another
      identifier staying in its place relative to the others. */
  lemma RemoveKeepsOrder(a: seq<Item>, b: seq<Item>, x: Item, id: string)
    ensures RemoveItem(a + b, true, true, id).value
         == RemoveItem(a, true, true, id).value + RemoveItem(b, true, true, id).value
    ensures RemoveItem([x], true, true, id).value == if x.id != id then [x] else []
  {
    FilterKeepsOrder(a, b, x, NotItem(id));
  }

  /** Removing an item just added under a fresh identifier gives back the catalog. */
  lemma AddThenRemove(inv: seq<Item>, d: ItemDraft, newId: string)
    requires forall x :: x in inv ==> x.id != newId
    requires AddItem(inv, d, newId).Ok?
    ensures RemoveItem(AddItem(inv, d, newId).value, true, true, newId) == Ok(inv)
  {
    var r := AddItem(inv, d, newId).value;
    FilterKeepsAll(inv, NotItem(newId));
    assert !NotItem(newId)(r[0]);
    assert Filter(r, NotItem(newId)) == Filter(r[1..], NotItem(newId));
  }
}

=== FILE: journal.dfy ===
/** The cash journal of one day: movements are put in front of the list and only an
    administrator may take one out again. */
module Journal {
  import opened Common
  import opened Records

  /** Records a movement: it is stamped and becomes the first of the day, and the
      movements already there stay as they were, in the same order. */
  function Record(day: seq<Movement>, st: Stamp, e: Entry): (r: seq<Movement>)
    ensures |r| == |day| + 1
    ensures r[0].stamp == st && r[0].entry == e
    ensures r[1..] == day
  {
    [Movement(st, e)] + day
  }

  /** The test `String(m.id) !== String(id)` of the deletion. */
  function OtherThan(id: string): Movement -> bool {
    (m: Movement) => m.stamp.id != id
  }

  /** The day without the movements whose identifier is `id`. */
  function Without(day: seq<Movement>, id: string): (r: seq<Movement>)
    ensures forall m :: m in r <==> m in day && m.stamp.id != id
  {
    Filter(day, OtherThan(id))
  }

  /** The admin-only deletion of a movement, after the operator confirms it. */
  function DeleteMovement(day: seq<Movement>, isAdmin: bool, confirmed: bool, id: string): (r: Result<seq<Movement>>)
    ensures !isAdmin ==> r == Err(NotAdmin)
    ensures isAdmin && !confirmed ==> r == Err(Cancelled)
    ensures r.Ok? <==> isAdmin && confirmed
    ensures r.Ok? ==> forall m :: m in r.value <==> m in day && m.stamp.id != id
  {
    if !isAdmin then Err(NotAdmin)
    else if !confirmed then Err(Cancelled)
    else Ok(Without(day, id))
  }

  /** The deletion keeps the day in order: the day is taken movement by movement, each one
      with another identifier staying in its place relative to the others. */
  lemma DeleteKeepsOrder(a: seq<Movement>, b: seq<Movement>, m: Movement, id: string)
    ensures DeleteMovement(a + b, true, true, id).value
         == DeleteMovement(a, true, true, id).value + DeleteMovement(b, true, true, id).value
    ensures DeleteMovement([m], true, true, id).value == if m.stamp.id != id then [m] else []
  {
    FilterKeepsOrder(a, b, m, OtherThan(id));
  }

  predicate IdsFresh(day: seq<Movement>, id: string) {
    forall m :: m in day ==> m.stamp.id != id
  }

  /** Deleting a movement just recorded under a fresh identifier restores the day. */
  lemma RecordThenDelete(day: seq<Movement>, st: Stamp, e: Entry)
    requires IdsFresh(day, st.id)
    ensures DeleteMovement(Record(day, st, e), true, true, st.id) == Ok(day)
  {
    var r := Record(day, st, e);
    FilterKeepsAll(day, OtherThan(st.id));
    assert !OtherThan(st.id)(r[0]);
    assert Filter(r, OtherThan(st.id)) == Filter(r[1..], OtherThan(st.id));
  }
}

=== FILE: orders.dfy ===
/** The service-order lifecycle: creation with its consent check, the diagnostic-fee
    charge, the diagnosis-only close, status changes and delivery, and admin deletion. */
module Orders {
  import opened Common
  import opened Text
  import opened Records
  import Journal
  import Inventory

  // ---------- totals ----------

  /** `precioVenta * (cantidad || 1)` of a part line. */
  function PartAmount(l: Line): real {
    AmountOf(l.item.price) * (Inventory.LineQty(l) as real)
  }

  /** The parts total of an order form (`totalRep`). */
  function PartsTotal(parts: seq<Line>): real {
    if parts == [] then 0.0 else PartAmount(parts[0]) + PartsTotal(parts[1..])
  }

  /** Every part line has a non-negative price and quantity. */
  predicate PartsNonNegative(parts: seq<Line>) {
    forall i :: 0 <= i < |parts| ==> AmountOf(parts[i].item.price) >= 0.0 && parts[i].qty >= 0
  }

  lemma {:induction false} PartsTotalNonNegative(parts: seq<Line>)
    ensures PartsNonNegative(parts) ==> PartsTotal(parts) >= 0.0
  {
    if parts != [] && PartsNonNegative(parts) {
      assert AmountOf(parts[0].item.price) >= 0.0 && Inventory.LineQty(parts[0]) >= 1;
      PartsTotalNonNegative(parts[1..]);
    }
  }

  /** The order total (`totalGral`): labor, parts and logistics, blanks read as 0. */
  function OrderTotal(labor: Option<real>, parts: seq<Line>, logistics: Option<real>): (r: real)
    ensures labor.None? && logistics.None? ==> r == PartsTotal(parts)
    ensures AmountOf(labor) >= 0.0 && AmountOf(logistics) >= 0.0 && PartsNonNegative(parts) ==>
              r >= PartsTotal(parts) >= 0.0
  {
    PartsTotalNonNegative(parts);
    AmountOf(labor) + PartsTotal(parts) + AmountOf(logistics)
  }

  /** Adding a part line to the form raises the parts total by that line's amount; a line
      picked from the catalog has quantity 1 and so adds its price. */
  lemma {:induction false} PartsTotalAppend(parts: seq<Line>, l: Line)
    ensures PartsTotal(parts + [l]) == PartsTotal(parts) + PartAmount(l)
    ensures l.qty == 1 ==> PartsTotal(parts + [l]) == PartsTotal(parts) + AmountOf(l.item.price)
  {
    if parts != [] {
      assert (parts + [l])[1..] == parts[1..] + [l];
      PartsTotalAppend(parts[1..], l);
    } else {
      assert [] + [l] == [l];
    }
  }

  /** Two lines of the same part are charged twice in the total, yet a delivery deducts
      the part only once from the stock. */
  lemma DuplicatePartChargedTwiceDeductedOnce(it: Item, l: Line)
    requires l.Matches(it.id) && l.qty == 1 && it.stock >= 2
    ensures PartsTotal([l, l]) == 2.0 * AmountOf(l.item.price)
    ensures Inventory.Decrement([it], [l, l])[0].stock == it.stock - 1
  {
    assert [l, l][1..] == [l];
    assert [l][1..] == [];
    assert PartAmount(l) == AmountOf(l.item.price);
    assert PartsTotal([l]) == PartAmount(l);
    assert PartsTotal([l, l]) == PartAmount(l) + PartsTotal([l]);
    Inventory.DuplicateLineDeductedOnce(it, l);
  }

  // ---------- creation ----------

  /** The signed declaration is complete: not required, or accepted with the signer's
      name, national ID and signature all non-blank (`validarConsent`). */
  predicate ConsentValid(c: Consent): (ok: bool)
    ensures !c.required ==> ok
    ensures c.required ==>
              (ok <==> c.accepted && Trim(c.signerName) != [] && Trim(c.signerDni) != [] && Trim(c.signature) != [])
  {
    !c.required || (c.accepted && !IsBlank(c.signerName) && !IsBlank(c.signerDni) && !IsBlank(c.signature))
  }

  /** `Number(monto || 50)` when the order is saved. The form field is either falsy
      (`None`: left blank, or the number 0 the fee checkbox may put there), which reads as
      50, or it holds the text typed, which is kept as typed, a typed "0" included. */
  function FeeAmount(amount: Option<real>): (r: real)
    ensures amount.None? ==> r == 50.0
    ensures amount.Some? ==> r == amount.value
  {
    amount.GetOr(50.0)
  }

  /** `Number(o.diagnostico.monto || 50)` when the fee is charged or a close bills it: the
      stored amount is a number by now, and a stored 0 reads as 50. */
  function FeeDue(o: Order): (r: real)
    ensures o.fee.amount == 0.0 ==> r == 50.0
    ensures o.fee.amount != 0.0 ==> r == o.fee.amount
    ensures r != 0.0
  {
    if o.fee.amount == 0.0 then 50.0 else o.fee.amount
  }

  function FeeFromForm(f: FeeForm): Fee {
    Fee(f.applies, FeeAmount(f.amount), f.charged, MethodOr(f.payMethod), f.chargedAt)
  }

  const CredentialsNotKept: string := "Credenciales brindadas solo para atención (NO guardadas)."

  /** The access record as stored: verbatim when the customer allowed keeping the
      credentials, otherwise only the lock type and backup flag, with a note. */
  function StoredAccess(a: Access): (r: Access)
    ensures a.keepCredentials ==> r == a
    ensures !a.keepCredentials ==>
              && r.gmail == "" && r.icloud == "" && r.code == "" && r.password == "" && r.pattern == ""
              && !r.keepCredentials && r.allowBackup == a.allowBackup
              && r.lockType == (if a.lockType == "" then "Ninguno" else a.lockType)
              && r.note == CredentialsNotKept
  {
    if a.keepCredentials then a
    else Access(if a.lockType == "" then "Ninguno" else a.lockType, a.allowBackup, "", "", "", "", "", false, CredentialsNotKept)
  }

  /** The mandatory fields of the form: client, IMEI/serial and reported fault. */
  predicate FormComplete(f: OrderForm) {
    f.clientId != "" && f.imei != "" && f.work.fault != ""
  }

  /** Creates a service order (`guardar`). It needs the mandatory fields and a valid
      consent. The order goes first, in status Received, with the total of its labor,
      parts and logistics and a balance of total minus advance, NOT clamped at zero. A
      positive advance is recorded as a service movement. */
  function Create(shop: Shop, clients: seq<Client>, f: OrderForm, ticket: string, today: string, now: string, st: Stamp): (r: Result<Shop>)
    ensures r == Err(Missing) <==> !FormComplete(f)
    ensures r == Err(ConsentMissing) <==> FormComplete(f) && !ConsentValid(f.consent)
    ensures r.Ok? <==> FormComplete(f) && ConsentValid(f.consent)
    ensures r.Ok? ==>
              && r.value.inventory == shop.inventory
              && |r.value.orders| == |shop.orders| + 1 && r.value.orders[1..] == shop.orders
    ensures r.Ok? ==>
              var o := r.value.orders[0];
              && o.id == ticket && o.status == Received && o.parts == f.parts
              && o.total == AmountOf(f.labor) + PartsTotal(f.parts) + AmountOf(f.logistics)
              && o.advance == AmountOf(f.advance)
              && o.balance == o.total - o.advance
              && o.fee == Fee(f.fee.applies, FeeAmount(f.fee.amount), f.fee.charged, MethodOr(f.fee.payMethod), f.fee.chargedAt)
              && o.access == StoredAccess(f.access)
              && o.consent == f.consent.(signedAt := now)
    ensures r.Ok? ==>
              var o := r.value.orders[0];
              && o.date == today && o.client == FindClient(clients, f.clientId) && o.technician == f.technician
              && o.imei == f.imei && o.work == f.work && o.labor == f.labor && o.logistics == f.logistics
              && o.advanceMethod == f.advanceMethod
    ensures r.Ok? && AmountOf(f.advance) > 0.0 ==>
              && |r.value.day| == |shop.day| + 1 && r.value.day[1..] == shop.day
              && r.value.day[0].entry.kind == Service
              && r.value.day[0].entry.amount == AmountOf(f.advance)
              && r.value.day[0].entry.payMethod == f.advanceMethod
              && r.value.day[0].stamp == st
              && r.value.day[0].entry.client == FindClient(clients, f.clientId)
    ensures r.Ok? && AmountOf(f.advance) <= 0.0 ==> r.value.day == shop.day
  {
    if !FormComplete(f) then Err(Missing)
    else if !ConsentValid(f.consent) then Err(ConsentMissing)
    else
      var client := FindClient(clients, f.clientId);
      var total := OrderTotal(f.labor, f.parts, f.logistics);
      var advance := AmountOf(f.advance);
      var o := Order(ticket, today, client, f.technician, f.imei, f.work, f.labor, f.logistics,
                     advance, f.advanceMethod, f.parts, StoredAccess(f.access),
                     f.consent.(signedAt := now), FeeFromForm(f.fee), total, total - advance, Received);
      var day := if advance > 0.0
                 then Journal.Record(shop.day, st, Entry(Service, f.advanceMethod, advance, "Adelanto OS: " + ticket, client, NoDetail))
                 else shop.day;
      Ok(shop.(orders := [o] + shop.orders, day := day))
  }

  /** Deleting an order just created under a fresh ticket gives back the orders and the
      catalog as they were. */
  lemma CreateThenDelete(shop: Shop, clients: seq<Client>, f: OrderForm, ticket: string, today: string, now: string, st: Stamp)
    requires FormComplete(f) && ConsentValid(f.consent)
    requires forall k :: 0 <= k < |shop.orders| ==> shop.orders[k].id != ticket
    ensures var s := Create(shop, clients, f, ticket, today, now, st).value;
            && DeleteOrder(s, true, ticket, true).Ok?
            && DeleteOrder(s, true, ticket, true).value.orders == shop.orders
            && DeleteOrder(s, true, ticket, true).value.inventory == shop.inventory
  {
    var s := Create(shop, clients, f, ticket, today, now, st).value;
    var o := s.orders[0];
    assert s.orders == [o] + shop.orders;
    assert FindOrder(s.orders, ticket) == Some(0);
    RemainingKeepsOrder([o], shop.orders, o, ticket);
    FilterKeepsAll(shop.orders, NotOrder(ticket));
  }

  /** An advance larger than the total leaves a negative balance at creation. */
  lemma CreateBalanceCanBeNegative(shop: Shop, clients: seq<Client>, f: OrderForm, ticket: string, today: string, now: string, st: Stamp)
    requires FormComplete(f) && ConsentValid(f.consent)
    requires AmountOf(f.advance) > OrderTotal(f.labor, f.parts, f.logistics)
    ensures Create(shop, clients, f, ticket, today, now, st).value.orders[0].balance < 0.0
  {
  }

  // ---------- lookups over the order list ----------

  /** The position of the first order with identifier `id` (`ordenes.find`). */
  function FindOrder(orders: seq<Order>, id: string, from: nat := 0): (r: Option<nat>)
    requires from <= |orders|
    requires forall k :: 0 <= k < from ==> orders[k].id != id
    ensures r.Some? ==> r.value < |orders| && orders[r.value].id == id
    ensures r.Some? ==> forall k :: 0 <= k < r.value ==> orders[k].id != id
    ensures r.None? ==> forall k :: 0 <= k < |orders| ==> orders[k].id != id
    decreases |orders| - from
  {
    if from == |orders| then None
    else if orders[from].id == id then Some(from)
    else FindOrder(orders, id, from + 1)
  }

  /** Two order lists with the same identifiers at every position find the same order. */
  lemma {:induction false} FindOrderSameIds(a: seq<Order>, b: seq<Order>, id: string, from: nat)
    requires |a| == |b| && from <= |a|
    requires forall k :: 0 <= k < |a| ==> a[k].id == b[k].id
    requires forall k :: 0 <= k < from ==> a[k].id != id
    ensures FindOrder(a, id, from) == FindOrder(b, id, from)
    decreases |a| - from
  {
    if from < |a| && a[from].id != id {
      FindOrderSameIds(a, b, id, from + 1);
    }
  }

  // ---------- diagnostic fee ----------

  /** The order after its diagnostic fee of `amount` was charged: the fee becomes part of
      the advance and the balance is recomputed, clamped at zero. */
  function ChargeOrder(x: Order, amount: real, payMethod: string, now: string): Order {
    var advance := x.advance + amount;
    x.(advance := advance,
       advanceMethod := if x.advanceMethod == "" then payMethod else x.advanceMethod,
       balance := Max(0.0, x.total - advance),
       fee := x.fee.(charged := true, payMethod := payMethod, chargedAt := now))
  }

  /** Every order `id` charged `amount`, the others as they were. */
  function ChargeAll(orders: seq<Order>, id: string, amount: real, payMethod: string, now: string): (r: seq<Order>)
    ensures |r| == |orders|
    ensures forall k :: 0 <= k < |orders| && orders[k].id != id ==> r[k] == orders[k]
    ensures forall k :: 0 <= k < |orders| && orders[k].id == id ==> r[k] == ChargeOrder(orders[k], amount, payMethod, now)
  {
    seq(|orders|, k requires 0 <= k < |orders| =>
      if orders[k].id == id then ChargeOrder(orders[k], amount, payMethod, now) else orders[k])
  }

  /** `met || "Efectivo"`. */
  function MethodOr(m: string): string {
    if m == "" then "Efectivo" else m
  }

  /** Charges the diagnostic fee of order `id` (`cobrarDiagnostico`). It fails, changing
      nothing, when the order is unknown, the fee does not apply, it was charged already,
      or the operator cancels the payment-method prompt. Otherwise one service movement of
      the fee is recorded and every order with that identifier gets the fee added to its
      advance, its balance recomputed, and the fee marked charged. */
  function Charge(shop: Shop, id: string, reply: Reply<string>, now: string, st: Stamp): (r: Result<Shop>)
    ensures FindOrder(shop.orders, id).None? ==> r == Err(NotFound)
    ensures FindOrder(shop.orders, id).Some? ==>
              var o := shop.orders[FindOrder(shop.orders, id).value];
              && (!o.fee.applies ==> r == Err(FeeNotApplicable))
              && (o.fee.applies && o.fee.charged ==> r == Err(FeeAlreadyCharged))
              && (o.fee.applies && !o.fee.charged && reply.Cancel? ==> r == Err(Cancelled))
              && (r.Ok? <==> o.fee.applies && !o.fee.charged && reply.Answer?)
              && (r.Ok? ==>
                    && |r.value.day| == |shop.day| + 1 && r.value.day[1..] == shop.day
                    && r.value.day[0].entry.kind == Service
                    && r.value.day[0].entry.amount == FeeDue(o)
                    && r.value.day[0].entry.payMethod == MethodOr(reply.value)
                    && r.value.day[0].entry.detail == DiagnosticFee
                    && r.value.day[0].stamp == st
                    && r.value.day[0].entry.client == o.client)
    ensures r.Ok? ==>
              var s := r.value;
              && s.inventory == shop.inventory
              && |s.orders| == |shop.orders|
              && forall k :: 0 <= k < |shop.orders| ==>
                   var x, y := shop.orders[k], s.orders[k];
                   && y.id == x.id
                   && (x.id != id ==> y == x)
                   && (x.id == id ==>
                         && y.advance == x.advance + FeeDue(shop.orders[FindOrder(shop.orders, id).value])
                         && y.balance == Max(0.0, y.total - y.advance)
                         && y == x.(advance := y.advance, balance := y.balance,
                                    advanceMethod := if x.advanceMethod == "" then MethodOr(reply.value) else x.advanceMethod,
                                    fee := x.fee.(charged := true, payMethod := MethodOr(reply.value), chargedAt := now)))
  {
    match FindOrder(shop.orders, id)
    case None => Err(NotFound)
    case Some(j) =>
      var o := shop.orders[j];
      if !o.fee.applies then Err(FeeNotApplicable)
      else if o.fee.charged then Err(FeeAlreadyCharged)
      else if reply.Cancel? then Err(Cancelled)
      else
        var amount := FeeDue(o);
        var m := MethodOr(reply.value);
        var e := Entry(Service, m, amount, "Diagnóstico OS: " + id, o.client, DiagnosticFee);
        Ok(shop.(orders := ChargeAll(shop.orders, id, amount, m, now), day := Journal.Record(shop.day, st, e)))
  }

  /** A fee is never charged twice: once a charge went through, any further attempt on the
      same order is refused, and records nothing. */
  lemma ChargeTwiceRefused(shop: Shop, id: string, reply: Reply<string>, now: string, st: Stamp,
                           reply': Reply<string>, now': string, st': Stamp)
    requires Charge(shop, id, reply, now, st).Ok?
    ensures Charge(Charge(shop, id, reply, now, st).value, id, reply', now', st') == Err(FeeAlreadyCharged)
  {
    var s := Charge(shop, id, reply, now, st).value;
    FindOrderSameIds(shop.orders, s.orders, id, 0);
  }

  /** A fee typed as "0" is stored as 0, yet charging it bills the default of 50: the save
      and the charge read the amount differently. */
  lemma ZeroFeeChargesDefault(shop: Shop, clients: seq<Client>, f: OrderForm, ticket: string, today: string, now: string,
                              st: Stamp, m: string, now': string, st': Stamp)
    requires FormComplete(f) && ConsentValid(f.consent)
    requires f.fee.amount == Some(0.0) && f.fee.applies && !f.fee.charged
    ensures var s := Create(shop, clients, f, ticket, today, now, st).value;
            && s.orders[0].fee.amount == 0.0
            && Charge(s, ticket, Answer(m), now', st').Ok?
            && Charge(s, ticket, Answer(m), now', st').value.day[0].entry.amount == 50.0
  {
    var s := Create(shop, clients, f, ticket, today, now, st).value;
    assert FindOrder(s.orders, ticket) == Some(0);
  }

  /** The shop after the charge a diagnosis-only close may start: the charge when the fee
      applies, is uncharged and the operator agrees (and the charge goes through), the shop
      as it was otherwise. */
  function ChargeOnClose(shop: Shop, o: Order, id: string, confirmCharge: bool, reply: Reply<string>, now: string, st: Stamp): (s1: Shop)
    requires FindOrder(shop.orders, id).Some? && o == shop.orders[FindOrder(shop.orders, id).value]
    ensures ChargesOnClose(o, confirmCharge, reply) ==>
              Charge(shop, id, reply, now, st).Ok? && s1 == Charge(shop, id, reply, now, st).value
    ensures !ChargesOnClose(o, confirmCharge, reply) ==> s1 == shop
  {
    if o.fee.applies && !o.fee.charged && confirmCharge then
      match Charge(shop, id, reply, now, st)
      case Ok(s) => s
      case Err(_) => shop
    else shop
  }

  // ---------- diagnosis-only close ----------

  const DefaultDiagnosis: string := "Diagnóstico realizado. Cliente no aprobó reparación."

  /** The diagnosis kept on a voided order: the technician's if non-blank, else the default note. */
  function ClosingDiagnosis(d: string): string {
    if IsBlank(d) then DefaultDiagnosis else d
  }

  /** Every order `id` voided with the given total and balance and its diagnosis filled in. */
  function VoidAll(orders: seq<Order>, id: string, total: real, balance: real): (r: seq<Order>)
    ensures |r| == |orders|
    ensures forall k :: 0 <= k < |orders| && orders[k].id != id ==> r[k] == orders[k]
    ensures forall k :: 0 <= k < |orders| && orders[k].id == id ==>
              r[k] == orders[k].(status := Voided, total := total, balance := balance,
                                 work := orders[k].work.(diagnosis := ClosingDiagnosis(orders[k].work.diagnosis)))
  {
    seq(|orders|, k requires 0 <= k < |orders| =>
      var x := orders[k];
      if x.id == id
      then x.(status := Voided, total := total, balance := balance,
              work := x.work.(diagnosis := ClosingDiagnosis(x.work.diagnosis)))
      else x)
  }

  /** The close also charges the fee: it applies, is still uncharged, the operator agrees
      and gives a payment method. */
  predicate ChargesOnClose(o: Order, confirmCharge: bool, reply: Reply<string>) {
    o.fee.applies && !o.fee.charged && confirmCharge && reply.Answer?
  }

  /** The fee a diagnosis-only close bills: the fee if it applies, otherwise nothing. */
  function ClosingFee(o: Order): real {
    if o.fee.applies then FeeDue(o) else 0.0
  }

  /** Closes order `id` as diagnosis only (`cerrarComoDiagnostico`), AS WRITTEN: the order
      is read, the fee may be charged, and then total and balance are computed from the
      order as read BEFORE the charge. Unknown order or no confirmation: no change. */
  function Close(shop: Shop, id: string, confirmClose: bool, confirmCharge: bool, reply: Reply<string>, now: string, st: Stamp): (r: Result<Shop>)
    ensures FindOrder(shop.orders, id).None? ==> r == Err(NotFound)
    ensures FindOrder(shop.orders, id).Some? ==> (r.Ok? <==> confirmClose)
    ensures FindOrder(shop.orders, id).Some? && !confirmClose ==> r == Err(Cancelled)
  {
    match FindOrder(shop.orders, id)
    case None => Err(NotFound)
    case Some(j) =>
      if !confirmClose then Err(Cancelled)
      else
        var o := shop.orders[j];
        var s1 := ChargeOnClose(shop, o, id, confirmCharge, reply, now, st);
        var total := Max(ClosingFee(o), o.advance);
        Ok(s1.(orders := VoidAll(s1.orders, id, total, Max(0.0, total - o.advance))))
  }

  /** The orders after a charge that went through, position by position. */
  lemma ChargedOrders(shop: Shop, id: string, reply: Reply<string>, now: string, st: Stamp)
    requires Charge(shop, id, reply, now, st).Ok?
    ensures var s1 := Charge(shop, id, reply, now, st).value;
            var o := shop.orders[FindOrder(shop.orders, id).value];
            && |s1.orders| == |shop.orders|
            && s1.inventory == shop.inventory
            && |s1.day| == |shop.day| + 1 && s1.day[1..] == shop.day && s1.day[0].entry.amount == FeeDue(o)
            && (forall k :: 0 <= k < |shop.orders| && shop.orders[k].id != id ==> s1.orders[k] == shop.orders[k])
            && (forall k :: 0 <= k < |shop.orders| && shop.orders[k].id == id ==>
                  && s1.orders[k].id == id
                  && s1.orders[k].advance == shop.orders[k].advance + FeeDue(o)
                  && s1.orders[k].work == shop.orders[k].work
                  && s1.orders[k].fee.applies == shop.orders[k].fee.applies
                  && s1.orders[k].fee.amount == shop.orders[k].fee.amount)
  {
  }

  /** A confirmed close is the optional charge followed by voiding the orders with the
      total and balance computed from the order read before the charge. */
  lemma CloseUnfold(shop: Shop, id: string, confirmCharge: bool, reply: Reply<string>, now: string, st: Stamp)
    requires FindOrder(shop.orders, id).Some?
    ensures var o := shop.orders[FindOrder(shop.orders, id).value];
            var s1 := ChargeOnClose(shop, o, id, confirmCharge, reply, now, st);
            var total := Max(ClosingFee(o), o.advance);
            Close(shop, id, true, confirmCharge, reply, now, st) == Ok(s1.(orders := VoidAll(s1.orders, id, total, Max(0.0, total - o.advance))))
  {
  }

  /** What a confirmed close leaves around the closed order: the catalog as it was, one
      movement of the fee when the close charged it and none otherwise, and every other
      order unchanged. */
  lemma CloseFrame(shop: Shop, id: string, confirmCharge: bool, reply: Reply<string>, now: string, st: Stamp)
    requires FindOrder(shop.orders, id).Some?
    ensures var o := shop.orders[FindOrder(shop.orders, id).value];
            var s := Close(shop, id, true, confirmCharge, reply, now, st).value;
            && s.inventory == shop.inventory
            && |s.orders| == |shop.orders|
            && (ChargesOnClose(o, confirmCharge, reply) ==>
                  |s.day| == |shop.day| + 1 && s.day[1..] == shop.day && s.day[0].entry.amount == FeeDue(o))
            && (!ChargesOnClose(o, confirmCharge, reply) ==> s.day == shop.day)
            && (forall k :: 0 <= k < |shop.orders| && shop.orders[k].id != id ==> s.orders[k] == shop.orders[k])
  {
    var o := shop.orders[FindOrder(shop.orders, id).value];
    CloseUnfold(shop, id, confirmCharge, reply, now, st);
    if ChargesOnClose(o, confirmCharge, reply) {
      ChargedOrders(shop, id, reply, now, st);
    }
  }

  /** The closed order, position by position, in terms of the order before the close:
      after the optional charge its advance grew by `paid` and its work is unchanged. */
  lemma ChargeOnCloseOrders(shop: Shop, id: string, confirmCharge: bool, reply: Reply<string>, now: string, st: Stamp)
    requires FindOrder(shop.orders, id).Some?
    ensures var o := shop.orders[FindOrder(shop.orders, id).value];
            var s1 := ChargeOnClose(shop, o, id, confirmCharge, reply, now, st);
            var paid := if ChargesOnClose(o, confirmCharge, reply) then FeeDue(o) else 0.0;
            && |s1.orders| == |shop.orders|
            && forall k :: 0 <= k < |shop.orders| && shop.orders[k].id == id ==>
                 && s1.orders[k].advance == shop.orders[k].advance + paid
                 && (ChargesOnClose(o, confirmCharge, reply) ==>
                       s1.orders[k] == shop.orders[k].(advance := s1.orders[k].advance, balance := s1.orders[k].balance,
                                                       advanceMethod := if shop.orders[k].advanceMethod == "" then MethodOr(reply.value)
                                                                        else shop.orders[k].advanceMethod,
                                                       fee := shop.orders[k].fee.(charged := true, payMethod := MethodOr(reply.value), chargedAt := now)))
                 && (!ChargesOnClose(o, confirmCharge, reply) ==> s1.orders[k] == shop.orders[k])
  {
    var o := shop.orders[FindOrder(shop.orders, id).value];
    if ChargesOnClose(o, confirmCharge, reply) {
      ChargedOrders(shop, id, reply, now, st);
    }
  }

  /** What a confirmed close does to the closed order. Every order `id` is voided with
      total = max(fee if it applies, advance before the charge) and
      balance = max(0, total - advance before the charge), and its advance keeps the fee
      when the close charged it. */
  lemma CloseEffect(shop: Shop, id: string, confirmCharge: bool, reply: Reply<string>, now: string, st: Stamp)
    requires FindOrder(shop.orders, id).Some?
    ensures var o := shop.orders[FindOrder(shop.orders, id).value];
            var s := Close(shop, id, true, confirmCharge, reply, now, st).value;
            var total := Max(ClosingFee(o), o.advance);
            var paid := if ChargesOnClose(o, confirmCharge, reply) then FeeDue(o) else 0.0;
            forall k :: 0 <= k < |shop.orders| && shop.orders[k].id == id ==>
              && s.orders[k].status == Voided
              && s.orders[k].total == total
              && s.orders[k].balance == Max(0.0, total - o.advance)
              && s.orders[k].advance == shop.orders[k].advance + paid
              && s.orders[k] == shop.orders[k].(status := Voided, total := total, balance := Max(0.0, total - o.advance),
                                                advance := s.orders[k].advance, advanceMethod := s.orders[k].advanceMethod,
                                                fee := s.orders[k].fee, work := s.orders[k].work)
              && s.orders[k].work == shop.orders[k].work.(diagnosis := s.orders[k].work.diagnosis)
              && (ChargesOnClose(o, confirmCharge, reply) ==>
                    && s.orders[k].fee == shop.orders[k].fee.(charged := true, payMethod := MethodOr(reply.value), chargedAt := now)
                    && s.orders[k].advanceMethod
                       == if shop.orders[k].advanceMethod == "" then MethodOr(reply.value) else shop.orders[k].advanceMethod)
              && (!ChargesOnClose(o, confirmCharge, reply) ==>
                    s.orders[k].fee == shop.orders[k].fee && s.orders[k].advanceMethod == shop.orders[k].advanceMethod)
  {
    var o := shop.orders[FindOrder(shop.orders, id).value];
    var s1 := ChargeOnClose(shop, o, id, confirmCharge, reply, now, st);
    var total := Max(ClosingFee(o), o.advance);
    var balance := Max(0.0, total - o.advance);
    CloseUnfold(shop, id, confirmCharge, reply, now, st);
    ChargeOnCloseOrders(shop, id, confirmCharge, reply, now, st);
    var s := Close(shop, id, true, confirmCharge, reply, now, st).value;
    assert s.orders == VoidAll(s1.orders, id, total, balance);
    forall k | 0 <= k < |shop.orders| && shop.orders[k].id == id
      ensures s.orders[k] == s1.orders[k].(status := Voided, total := total, balance := balance,
                                            work := s1.orders[k].work.(diagnosis := ClosingDiagnosis(s1.orders[k].work.diagnosis)))
    {
      assert s1.orders[k].id == id;
    }
  }

  /** A confirmed close fills in a blank diagnosis of the closed order with the default
      note and keeps a written one. */
  lemma CloseFillsDiagnosis(shop: Shop, id: string, confirmCharge: bool, reply: Reply<string>, now: string, st: Stamp)
    requires FindOrder(shop.orders, id).Some?
    ensures var s := Close(shop, id, true, confirmCharge, reply, now, st).value;
            forall k :: 0 <= k < |shop.orders| && shop.orders[k].id == id ==>
              && (IsBlank(shop.orders[k].work.diagnosis) ==> s.orders[k].work.diagnosis == DefaultDiagnosis)
              && (!IsBlank(shop.orders[k].work.diagnosis) ==> s.orders[k].work.diagnosis == shop.orders[k].work.diagnosis)
  {
    CloseUnfold(shop, id, confirmCharge, reply, now, st);
    ChargeOnCloseOrders(shop, id, confirmCharge, reply, now, st);
  }

  /** The stale read, exhibited: an order with an applicable, uncharged fee and no advance,
      closed with the charge accepted, ends with the fee as advance AND as balance, so the
      customer appears to owe what was just paid. */
  lemma CloseChargeLeavesStaleBalance(shop: Shop, id: string, m: string, now: string, st: Stamp)
    requires FindOrder(shop.orders, id).Some?
    requires var o := shop.orders[FindOrder(shop.orders, id).value];
             o.fee.applies && !o.fee.charged && o.advance == 0.0 && o.fee.amount >= 0.0
    ensures var j := FindOrder(shop.orders, id).value;
            var y := Close(shop, id, true, true, Answer(m), now, st).value.orders[j];
            && y.advance == y.total && y.balance == y.total && y.total > 0.0
            && y.balance != Max(0.0, y.total - y.advance)
  {
    var j := FindOrder(shop.orders, id).value;
    var o := shop.orders[j];
    CloseEffect(shop, id, true, Answer(m), now, st);
    CloseFrame(shop, id, true, Answer(m), now, st);
    var y := Close(shop, id, true, true, Answer(m), now, st).value.orders[j];
    assert ClosingFee(o) == FeeDue(o) > 0.0;
    assert y.advance == FeeDue(o) && y.total == FeeDue(o);
  }

  /** The corrected close: total and balance are computed from the order as it stands
      AFTER the optional charge. */
  function CloseFixed(shop: Shop, id: string, confirmClose: bool, confirmCharge: bool, reply: Reply<string>, now: string, st: Stamp): (r: Result<Shop>)
    ensures FindOrder(shop.orders, id).None? ==> r == Err(NotFound)
    ensures FindOrder(shop.orders, id).Some? ==> (r.Ok? <==> confirmClose)
    ensures FindOrder(shop.orders, id).Some? && !confirmClose ==> r == Err(Cancelled)
  {
    match FindOrder(shop.orders, id)
    case None => Err(NotFound)
    case Some(j) =>
      if !confirmClose then Err(Cancelled)
      else
        var o := shop.orders[j];
        var s1 := ChargeOnClose(shop, o, id, confirmCharge, reply, now, st);
        var o1 := s1.orders[j];
        var total := Max(ClosingFee(o1), o1.advance);
        Ok(s1.(orders := VoidAll(s1.orders, id, total, Max(0.0, total - o1.advance))))
  }

  /** The corrected close keeps the balance rule on the closed order: its total is the
      larger of the fee and the advance including any fee just charged, and its balance
      is max(0, total - advance). */
  lemma CloseFixedKeepsBalanceRule(shop: Shop, id: string, confirmCharge: bool, reply: Reply<string>, now: string, st: Stamp)
    requires FindOrder(shop.orders, id).Some?
    ensures var j := FindOrder(shop.orders, id).value;
            var o := shop.orders[j];
            var y := CloseFixed(shop, id, true, confirmCharge, reply, now, st).value.orders[j];
            && y.status == Voided
            && y.advance == o.advance + (if ChargesOnClose(o, confirmCharge, reply) then FeeDue(o) else 0.0)
            && y.total == Max(ClosingFee(o), y.advance)
            && y.balance == Max(0.0, y.total - y.advance)
  {
    var j := FindOrder(shop.orders, id).value;
    var o := shop.orders[j];
    var s1 := ChargeOnClose(shop, o, id, confirmCharge, reply, now, st);
    if ChargesOnClose(o, confirmCharge, reply) {
      assert s1.orders[j].advance == o.advance + FeeDue(o);
      assert s1.orders[j].fee.applies && s1.orders[j].fee.amount == o.fee.amount;
    }
  }

  /** With the corrected close it no longer matters whether the fee is charged from the
      close itself or by a separate charge just before. */
  lemma CloseFixedPathIndependent(shop: Shop, id: string, m: string, now: string, st: Stamp,
                                  confirmCharge': bool, reply': Reply<string>, now': string, st': Stamp)
    requires Charge(shop, id, Answer(m), now, st).Ok?
    ensures CloseFixed(shop, id, true, true, Answer(m), now, st)
         == CloseFixed(Charge(shop, id, Answer(m), now, st).value, id, true, confirmCharge', reply', now', st')
  {
    var s := Charge(shop, id, Answer(m), now, st).value;
    FindOrderSameIds(shop.orders, s.orders, id, 0);
    var j := FindOrder(shop.orders, id).value;
    assert ChargeOnClose(shop, shop.orders[j], id, true, Answer(m), now, st) == s;
    assert ChargeOnClose(s, s.orders[j], id, confirmCharge', reply', now', st') == s;
  }

  // ---------- status change and delivery ----------

  /** Every order `id` in status `next`, nothing else changed. */
  function SetStatus(orders: seq<Order>, id: string, next: Status): (r: seq<Order>)
    ensures |r| == |orders|
    ensures forall k :: 0 <= k < |orders| ==>
              r[k] == (if orders[k].id == id then orders[k].(status := next) else orders[k])
  {
    seq(|orders|, k requires 0 <= k < |orders| => if orders[k].id == id then orders[k].(status := next) else orders[k])
  }

  /** Changes the status of order `id` (`changeStatus`). Any status but Delivered only
      changes the status. Delivery asks for the amount collected and the payment method
      (cancelling either changes nothing), takes the order's parts out of the catalog,
      records one service movement of the amount, and sets the balance to 0, leaving
      total and advance as they were. */
  function ChangeStatus(shop: Shop, id: string, next: Status, amount: Reply<Option<real>>, payMethod: Reply<string>, st: Stamp): (r: Result<Shop>)
    ensures FindOrder(shop.orders, id).None? ==> r == Err(NotFound)
    ensures FindOrder(shop.orders, id).Some? && next != Delivered ==>
              r == Ok(shop.(orders := SetStatus(shop.orders, id, next)))
    ensures FindOrder(shop.orders, id).Some? && next == Delivered ==>
              (r.Ok? <==> amount.Answer? && payMethod.Answer?)
    ensures r.Err? ==> r.error == NotFound || r.error == Cancelled
    ensures r.Ok? && next == Delivered ==>
              var o := shop.orders[FindOrder(shop.orders, id).value];
              var s := r.value;
              && s.inventory == Inventory.Decrement(shop.inventory, o.parts)
              && |s.day| == |shop.day| + 1 && s.day[1..] == shop.day
              && s.day[0].entry.kind == Service
              && s.day[0].entry.amount == AmountOf(amount.value)
              && s.day[0].entry.payMethod == MethodOr(payMethod.value)
              && s.day[0].stamp == st && s.day[0].entry.client == o.client
              && |s.orders| == |shop.orders|
              && forall k :: 0 <= k < |shop.orders| ==>
                   var x, y := shop.orders[k], s.orders[k];
                   && (x.id != id ==> y == x)
                   && (x.id == id ==> y == x.(status := Delivered, balance := 0.0))
  {
    match FindOrder(shop.orders, id)
    case None => Err(NotFound)
    case Some(j) =>
      if next != Delivered then Ok(shop.(orders := SetStatus(shop.orders, id, next)))
      else if amount.Cancel? || payMethod.Cancel? then Err(Cancelled)
      else
        var o := shop.orders[j];
        var e := Entry(Service, MethodOr(payMethod.value), AmountOf(amount.value), "Cobro Final OS: " + id, o.client, NoDetail);
        var orders := seq(|shop.orders|, k requires 0 <= k < |shop.orders| =>
                        if shop.orders[k].id == id then shop.orders[k].(status := Delivered, balance := 0.0) else shop.orders[k]);
        Ok(Shop(Inventory.Decrement(shop.inventory, o.parts), orders, Journal.Record(shop.day, st, e)))
  }

  /** A status change, delivery included, keeps non-negative stock non-negative and never
      alters what an order costs or what was paid on it: every order keeps its identifier,
      total, advance, parts and fee. */
  lemma ChangeStatusKeeps(shop: Shop, id: string, next: Status, amount: Reply<Option<real>>, payMethod: Reply<string>, st: Stamp)
    requires ChangeStatus(shop, id, next, amount, payMethod, st).Ok?
    ensures var s := ChangeStatus(shop, id, next, amount, payMethod, st).value;
            && (Inventory.StockNonNegative(shop.inventory) ==> Inventory.StockNonNegative(s.inventory))
            && |s.orders| == |shop.orders|
            && forall k :: 0 <= k < |shop.orders| ==>
                 var x, y := shop.orders[k], s.orders[k];
                 y.id == x.id && y.total == x.total && y.advance == x.advance && y.parts == x.parts && y.fee == x.fee
  {
  }

  /** Nothing stops a second delivery: delivering the same order again takes its parts out
      of the stock a second time. */
  lemma RedeliveryDeductsAgain(shop: Shop, id: string, amount: Reply<Option<real>>, payMethod: Reply<string>,
                               st: Stamp, st': Stamp, i: nat)
    requires FindOrder(shop.orders, id).Some?
    requires var o := shop.orders[FindOrder(shop.orders, id).value];
             && |o.parts| == 1 && o.parts[0].qty == 1
             && i < |shop.inventory| && o.parts[0].Matches(shop.inventory[i].id) && shop.inventory[i].stock >= 2
    requires amount.Answer? && payMethod.Answer?
    ensures var s1 := ChangeStatus(shop, id, Delivered, amount, payMethod, st).value;
            var r := ChangeStatus(s1, id, Delivered, amount, payMethod, st');
            && r.Ok?
            && r.value.inventory[i].stock == shop.inventory[i].stock - 2
  {
    var j := FindOrder(shop.orders, id).value;
    var o := shop.orders[j];
    var s1 := ChangeStatus(shop, id, Delivered, amount, payMethod, st).value;
    FindOrderSameIds(shop.orders, s1.orders, id, 0);
    assert s1.orders[j].parts == o.parts;
    assert Inventory.FirstMatchAt(o.parts, shop.inventory[i].id, 0);
    assert s1.inventory[i].stock == shop.inventory[i].stock - 1;
  }

  /** The whole repair path: an order for one part line of price 50 and quantity 2 with
      labor 40 and no advance has total and balance 140; delivering it for 140 takes 2
      units of the part out of stock (clamped at 0), records one service movement of 140,
      and leaves the order delivered with balance 0. */
  lemma RepairScenario(shop: Shop, clients: seq<Client>, f: OrderForm, ticket: string, today: string, now: string,
                       st: Stamp, st': Stamp, i: nat)
    requires FormComplete(f) && ConsentValid(f.consent)
    requires f.labor == Some(40.0) && f.logistics.None? && f.advance.None?
    requires |f.parts| == 1 && f.parts[0].item.price == Some(50.0) && f.parts[0].qty == 2
    requires i < |shop.inventory| && f.parts[0].Matches(shop.inventory[i].id)
    ensures var s1 := Create(shop, clients, f, ticket, today, now, st).value;
            && s1.orders[0].total == 140.0 && s1.orders[0].balance == 140.0
            && var r := ChangeStatus(s1, ticket, Delivered, Answer(Some(140.0)), Answer("Efectivo"), st');
               && r.Ok?
               && r.value.inventory[i].stock == MaxInt(0, shop.inventory[i].stock - 2)
               && r.value.day[0].entry.amount == 140.0 && r.value.day[0].entry.kind == Service
               && r.value.orders[0].status == Delivered && r.value.orders[0].balance == 0.0
               && r.value.orders[0].total == 140.0
  {
    var s1 := Create(shop, clients, f, ticket, today, now, st).value;
    assert f.parts[1..] == [];
    assert PartsTotal(f.parts) == 100.0;
    assert FindOrder(s1.orders, ticket) == Some(0);
    assert Inventory.FirstMatchAt(f.parts, shop.inventory[i].id, 0);
  }

  // ---------- deletion ----------

  function NotOrder(id: string): Order -> bool {
    (x: Order) => x.id != id
  }

  /** The orders without those whose identifier is `id`. */
  function Remaining(orders: seq<Order>, id: string): (r: seq<Order>)
    ensures forall x :: x in r <==> x in orders && x.id != id
  {
    Filter(orders, NotOrder(id))
  }

  /** The deletion keeps the orders in order: each order with another identifier stays in
      its place relative to the others. */
  lemma RemainingKeepsOrder(a: seq<Order>, b: seq<Order>, x: Order, id: string)
    ensures Remaining(a + b, id) == Remaining(a, id) + Remaining(b, id)
    ensures Remaining([x], id) == if x.id != id then [x] else []
  {
    FilterKeepsOrder(a, b, x, NotOrder(id));
  }

  /** The admin-only deletion of an order, after confirmation (`deleteOrden`). */
  function DeleteOrder(shop: Shop, isAdmin: bool, id: string, confirmed: bool): (r: Result<Shop>)
    ensures !isAdmin ==> r == Err(NotAdmin)
    ensures isAdmin && FindOrder(shop.orders, id).None? ==> r == Err(NotFound)
    ensures r.Ok? <==> isAdmin && FindOrder(shop.orders, id).Some? && confirmed
    ensures r.Ok? ==>
              && r.value.inventory == shop.inventory && r.value.day == shop.day
              && (forall x :: x in r.value.orders <==> x in shop.orders && x.id != id)
              && r.value.orders == Remaining(shop.orders, id)
  {
    if !isAdmin then Err(NotAdmin)
    else if FindOrder(shop.orders, id).None? then Err(NotFound)
    else if !confirmed then Err(Cancelled)
    else Ok(shop.(orders := Remaining(shop.orders, id)))
  }
}

=== FILE: pos.dfy ===
/** The point of sale: a cart that never asks for more than the stock, and a checkout that
    records one sale and takes the cart out of the catalog. */
module Pos {
  import opened Common
  import opened Text
  import opened Records
  import Journal
  import Inventory

  /** `precioVenta * cantidad`, with blank fields read as 0 (the cart, unlike an order,
      does not read an absent quantity as one). */
  function LineAmount(l: Line): real {
    AmountOf(l.item.price) * (l.qty as real)
  }

  /** The amount of the cart (`carrito.reduce`). */
  function CartTotal(cart: seq<Line>): (r: real)
    ensures cart == [] ==> r == 0.0
    ensures (forall i :: 0 <= i < |cart| ==> AmountOf(cart[i].item.price) >= 0.0 && cart[i].qty >= 0) ==> r >= 0.0
  {
    if cart == [] then 0.0 else LineAmount(cart[0]) + CartTotal(cart[1..])
  }

  /** At most one cart line per catalog item. */
  predicate CartIdsUnique(cart: seq<Line>) {
    forall i, j :: 0 <= i < j < |cart| ==> cart[i].item.id != cart[j].item.id
  }

  /** The first cart line for item `id` (`carrito.find`), searching from `from`. */
  function FindCartLine(cart: seq<Line>, id: string, from: nat): (r: Option<nat>)
    requires from <= |cart|
    requires forall k :: 0 <= k < from ==> cart[k].item.id != id
    ensures r.Some? ==> r.value < |cart| && cart[r.value].item.id == id
    ensures r.Some? ==> forall k :: 0 <= k < r.value ==> cart[k].item.id != id
    ensures r.None? ==> forall k :: 0 <= k < |cart| ==> cart[k].item.id != id
    decreases |cart| - from
  {
    if from == |cart| then None
    else if cart[from].item.id == id then Some(from)
    else FindCartLine(cart, id, from + 1)
  }

  /** One more unit on every line of item `id`. */
  function Bump(cart: seq<Line>, id: string): (r: seq<Line>)
    ensures |r| == |cart|
    ensures forall k :: 0 <= k < |cart| ==>
              r[k] == (if cart[k].item.id == id then cart[k].(qty := cart[k].qty + 1) else cart[k])
  {
    if cart == [] then []
    else [if cart[0].item.id == id then cart[0].(qty := cart[0].qty + 1) else cart[0]] + Bump(cart[1..], id)
  }

  /** Adds one unit of catalog item `p` to the cart (`ViewPOS.add`). A line already in the
      cart grows by one unless it already holds the whole stock; a new line of one unit
      needs a stock of at least one. */
  function CartAdd(cart: seq<Line>, p: Item): (r: Result<seq<Line>>)
    ensures var f := FindCartLine(cart, p.id, 0);
            && (f.Some? ==> (r == Err(InsufficientStock) <==> cart[f.value].qty >= p.stock))
            && (f.Some? && r.Ok? ==> r.value == Bump(cart, p.id))
            && (f.None? ==> (r == Err(OutOfStock) <==> p.stock < 1))
            && (f.None? && r.Ok? ==> r.value == cart + [Line(p, None, 1)])
    ensures r.Err? ==> r.error == InsufficientStock || r.error == OutOfStock
  {
    match FindCartLine(cart, p.id, 0)
    case Some(j) =>
      if cart[j].qty >= p.stock then Err(InsufficientStock) else Ok(Bump(cart, p.id))
    case None =>
      if p.stock < 1 then Err(OutOfStock) else Ok(cart + [Line(p, None, 1)])
  }

  /** Every line of the cart is a positive quantity of an item, added from the catalog. */
  predicate CartWellFormed(cart: seq<Line>) {
    && CartIdsUnique(cart)
    && forall k :: 0 <= k < |cart| ==> cart[k].qty >= 1 && cart[k].invId.None?
  }

  /** A successful add keeps the cart well formed, and the line of `p` then holds at most
      the stock of `p`. */
  lemma CartAddWithinStock(cart: seq<Line>, p: Item)
    requires CartWellFormed(cart)
    requires CartAdd(cart, p).Ok?
    ensures var r := CartAdd(cart, p).value;
            && CartWellFormed(r)
            && forall k :: 0 <= k < |r| && r[k].item.id == p.id ==> 1 <= r[k].qty <= p.stock
  {
    var r := CartAdd(cart, p).value;
    match FindCartLine(cart, p.id, 0)
    case Some(j) =>
      forall k | 0 <= k < |r| && r[k].item.id == p.id
        ensures r[k].qty <= p.stock
      {
        assert k == j;
      }
    case None =>
  }

  /** The sum of the prices of the lines of item `id`. */
  function PricesOf(cart: seq<Line>, id: string): real {
    if cart == [] then 0.0
    else (if cart[0].item.id == id then AmountOf(cart[0].item.price) else 0.0) + PricesOf(cart[1..], id)
  }

  lemma {:induction false} BumpTotal(cart: seq<Line>, id: string)
    ensures CartTotal(Bump(cart, id)) == CartTotal(cart) + PricesOf(cart, id)
  {
    if cart != [] {
      BumpTotal(cart[1..], id);
      assert Bump(cart, id)[1..] == Bump(cart[1..], id);
      var l := cart[0];
      if l.item.id == id {
        assert LineAmount(l.(qty := l.qty + 1)) == LineAmount(l) + AmountOf(l.item.price);
      }
    }
  }

  lemma {:induction false} PricesOfUnique(cart: seq<Line>, j: nat)
    requires j < |cart| && CartIdsUnique(cart)
    ensures PricesOf(cart, cart[j].item.id) == AmountOf(cart[j].item.price)
  {
    var id := cart[j].item.id;
    if j == 0 {
      PricesOfAbsent(cart[1..], id);
    } else {
      PricesOfUnique(cart[1..], j - 1);
    }
  }

  lemma {:induction false} PricesOfAbsent(cart: seq<Line>, id: string)
    requires forall k :: 0 <= k < |cart| ==> cart[k].item.id != id
    ensures PricesOf(cart, id) == 0.0
  {
    if cart != [] {
      PricesOfAbsent(cart[1..], id);
    }
  }

  lemma {:induction false} CartTotalAppend(cart: seq<Line>, l: Line)
    ensures CartTotal(cart + [l]) == CartTotal(cart) + LineAmount(l)
  {
    if cart != [] {
      assert (cart + [l])[1..] == cart[1..] + [l];
      CartTotalAppend(cart[1..], l);
    } else {
      assert [] + [l] == [l];
    }
  }

  /** Each successful add raises the amount of the cart by the unit price of the item's
      line: the snapshot price when the line was already there, the catalog price
      otherwise. */
  lemma CartAddRaisesTotal(cart: seq<Line>, p: Item)
    requires CartIdsUnique(cart)
    requires CartAdd(cart, p).Ok?
    ensures var f := FindCartLine(cart, p.id, 0);
            CartTotal(CartAdd(cart, p).value) ==
              CartTotal(cart) + (if f.Some? then AmountOf(cart[f.value].item.price) else AmountOf(p.price))
  {
    match FindCartLine(cart, p.id, 0)
    case Some(j) =>
      BumpTotal(cart, p.id);
      PricesOfUnique(cart, j);
    case None =>
      CartTotalAppend(cart, Line(p, None, 1));
  }

  /** Checkout (`ViewPOS.cobrar`): one sale movement for the amount of the cart, with the
      chosen client (or the walk-in client) and the cart as detail, then the cart is taken
      out of the catalog. An empty cart changes nothing. */
  function Checkout(shop: Shop, cart: seq<Line>, clients: seq<Client>, clientId: string, payMethod: string, st: Stamp): (r: Result<Shop>)
    ensures r.Err? <==> cart == []
    ensures r.Err? ==> r.error == EmptyCart
    ensures r.Ok? ==>
              && r.value.orders == shop.orders
              && r.value.inventory == Inventory.Decrement(shop.inventory, cart)
              && |r.value.day| == |shop.day| + 1
              && r.value.day[1..] == shop.day
              && r.value.day[0].entry.kind == Sale
              && r.value.day[0].entry.amount == CartTotal(cart)
              && r.value.day[0].entry.payMethod == payMethod
              && r.value.day[0].entry.detail == CartItems(cart)
              && r.value.day[0].stamp == st
              && (FindClient(clients, clientId).Some? ==> r.value.day[0].entry.client == FindClient(clients, clientId))
              && (FindClient(clients, clientId).None? ==> r.value.day[0].entry.client == Some(WalkIn))
  {
    if cart == [] then Err(EmptyCart)
    else
      var client := FindClient(clients, clientId).GetOr(WalkIn);
      var e := Entry(Sale, payMethod, CartTotal(cart), "Venta POS (" + IntToString(|cart|) + " items)", Some(client), CartItems(cart));
      Ok(shop.(inventory := Inventory.Decrement(shop.inventory, cart), day := Journal.Record(shop.day, st, e)))
  }

  /** Every line asks for no more than the stock of the item it names. */
  predicate CartFitsStock(cart: seq<Line>, inv: seq<Item>) {
    forall i, j :: 0 <= i < |inv| && 0 <= j < |cart| && cart[j].item.id == inv[i].id ==> cart[j].qty <= inv[i].stock
  }

  /** A well-formed cart that fits the stock is taken out exactly: no clamping happens,
      and items not in the cart keep their stock. */
  lemma CheckoutDeductsExactly(shop: Shop, cart: seq<Line>, clients: seq<Client>, clientId: string, payMethod: string, st: Stamp)
    requires cart != [] && CartWellFormed(cart) && CartFitsStock(cart, shop.inventory)
    ensures var inv := Checkout(shop, cart, clients, clientId, payMethod, st).value.inventory;
            && (forall i, j :: 0 <= i < |shop.inventory| && 0 <= j < |cart| && cart[j].item.id == shop.inventory[i].id ==>
                  inv[i].stock == shop.inventory[i].stock - cart[j].qty)
            && (forall i :: 0 <= i < |shop.inventory| && (forall j :: 0 <= j < |cart| ==> cart[j].item.id != shop.inventory[i].id) ==>
                  inv[i] == shop.inventory[i])
  {
    var inv := Checkout(shop, cart, clients, clientId, payMethod, st).value.inventory;
    forall i, j | 0 <= i < |shop.inventory| && 0 <= j < |cart| && cart[j].item.id == shop.inventory[i].id
      ensures inv[i].stock == shop.inventory[i].stock - cart[j].qty
    {
      assert Inventory.FirstMatchAt(cart, shop.inventory[i].id, j);
    }
    forall i | 0 <= i < |shop.inventory| && (forall j :: 0 <= j < |cart| ==> cart[j].item.id != shop.inventory[i].id)
      ensures inv[i] == shop.inventory[i]
    {
      assert Inventory.NoMatch(cart, shop.inventory[i].id);
    }
  }
}

=== FILE: reconcile.dfy ===
/** The end-of-day cash count: income, expenses and net of the journal, the net split by
    payment method and the total split by kind, and the comparison with the cash the
    operator counted. */
module Reconcile {
  import opened Common
  import opened Records
  import Journal

  // ---------- income, expenses, net ----------

  predicate IsExpense(m: Movement) {
    m.entry.kind == Expense
  }

  /** The amount as it counts towards the net: an expense is money going out. */
  function Signed(m: Movement): real {
    if IsExpense(m) then -m.entry.amount else m.entry.amount
  }

  /** `ing`: the amounts of every movement that is not an expense. */
  function Income(day: seq<Movement>): real {
    if day == [] then 0.0 else (if IsExpense(day[0]) then 0.0 else day[0].entry.amount) + Income(day[1..])
  }

  /** `egr`: the amounts of the expenses. */
  function Outflow(day: seq<Movement>): real {
    if day == [] then 0.0 else (if IsExpense(day[0]) then day[0].entry.amount else 0.0) + Outflow(day[1..])
  }

  /** `neto = ing - egr`. */
  function Net(day: seq<Movement>): real {
    Income(day) - Outflow(day)
  }

  /** The net is the sum of the signed amounts. */
  lemma {:induction false} NetIsSignedSum(day: seq<Movement>)
    ensures Net(day) == SignedSum(day)
  {
    if day != [] {
      NetIsSignedSum(day[1..]);
    }
  }

  function SignedSum(day: seq<Movement>): real {
    if day == [] then 0.0 else Signed(day[0]) + SignedSum(day[1..])
  }

  /** Recording a movement moves the net by its signed amount, and income or expenses
      (whichever its kind belongs to) by its amount. */
  lemma RecordMovesNet(day: seq<Movement>, st: Stamp, e: Entry)
    ensures var d := Journal.Record(day, st, e);
            && Net(d) == Net(day) + Signed(Movement(st, e))
            && (e.kind == Expense ==> Income(d) == Income(day) && Outflow(d) == Outflow(day) + e.amount)
            && (e.kind != Expense ==> Income(d) == Income(day) + e.amount && Outflow(d) == Outflow(day))
  {
    var d := Journal.Record(day, st, e);
    assert d[1..] == day;
  }

  // ---------- buckets ----------

  /** An object used as a tally: keys in insertion order, each with its running sum. */
  type Buckets<K> = seq<(K, real)>

  predicate KeysUnique<K(==)>(b: Buckets<K>) {
    forall i, j :: 0 <= i < j < |b| ==> b[i].0 != b[j].0
  }

  predicate HasKey<K(==)>(b: Buckets<K>, k: K) {
    exists i :: 0 <= i < |b| && b[i].0 == k
  }

  /** `agg[k] || 0`: the sum under key `k`, zero for a key never seen. */
  function Lookup<K(==)>(b: Buckets<K>, k: K): real {
    if b == [] then 0.0 else if b[0].0 == k then b[0].1 else Lookup(b[1..], k)
  }

  /** The sum of every bucket. */
  function Total<K>(b: Buckets<K>): real {
    if b == [] then 0.0 else b[0].1 + Total(b[1..])
  }

  /** `agg[k] = (agg[k] || 0) + v`: the bucket of `k` grows by `v`, a new key is put last. */
  function AddTo<K(==)>(b: Buckets<K>, k: K, v: real): (r: Buckets<K>)
    ensures |r| == |b| || |r| == |b| + 1
    ensures forall i :: 0 <= i < |b| ==> r[i].0 == b[i].0
  {
    if b == [] then [(k, v)]
    else if b[0].0 == k then [(k, b[0].1 + v)] + b[1..]
    else [b[0]] + AddTo(b[1..], k, v)
  }

  /** Adding to a bucket raises the sum of all buckets by exactly that amount. */
  lemma {:induction false} AddToTotal<K>(b: Buckets<K>, k: K, v: real)
    ensures Total(AddTo(b, k, v)) == Total(b) + v
  {
    if b != [] && b[0].0 != k {
      AddToTotal(b[1..], k, v);
      assert AddTo(b, k, v)[1..] == AddTo(b[1..], k, v);
    } else if b != [] {
      assert AddTo(b, k, v)[1..] == b[1..];
    }
  }

  /** Adding to bucket `k` raises `k` by the amount and leaves every other key as it was. */
  lemma {:induction false} AddToLookup<K>(b: Buckets<K>, k: K, v: real, k': K)
    ensures Lookup(AddTo(b, k, v), k') == Lookup(b, k') + (if k' == k then v else 0.0)
  {
    if b != [] && b[0].0 != k {
      assert AddTo(b, k, v)[1..] == AddTo(b[1..], k, v);
      AddToLookup(b[1..], k, v, k');
    }
  }

  /** Adding never duplicates a key, and the keys afterwards are the keys before plus `k`. */
  lemma {:induction false} AddToKeys<K>(b: Buckets<K>, k: K, v: real)
    requires KeysUnique(b)
    ensures KeysUnique(AddTo(b, k, v))
    ensures forall k' :: HasKey(AddTo(b, k, v), k') <==> HasKey(b, k') || k' == k
  {
    var r := AddTo(b, k, v);
    if b == [] {
      assert r[0].0 == k;
    } else if b[0].0 == k {
      forall k' ensures HasKey(r, k') <==> HasKey(b, k') || k' == k {
        if HasKey(b, k') {
          var i :| 0 <= i < |b| && b[i].0 == k';
          assert r[i].0 == k';
        }
        if HasKey(r, k') {
          var i :| 0 <= i < |r| && r[i].0 == k';
          assert b[i].0 == k';
        }
      }
    } else {
      var t := AddTo(b[1..], k, v);
      assert r == [b[0]] + t;
      AddToKeys(b[1..], k, v);
      forall k' ensures HasKey(r, k') <==> HasKey(b, k') || k' == k {
        if HasKey(b, k') {
          var i :| 0 <= i < |b| && b[i].0 == k';
          assert r[i].0 == k';
        }
        if k' == k {
          assert HasKey(t, k);
          var i :| 0 <= i < |t| && t[i].0 == k;
          assert r[i + 1].0 == k;
        }
        if HasKey(r, k') {
          var i :| 0 <= i < |r| && r[i].0 == k';
          if i > 0 {
            assert t[i - 1].0 == k';
            assert HasKey(t, k');
            if k' != k {
              assert HasKey(b[1..], k');
              var i' :| 0 <= i' < |b[1..]| && b[1..][i'].0 == k';
              assert b[i' + 1].0 == k';
            }
          }
        }
      }
      forall i, j | 0 <= i < j < |r| ensures r[i].0 != r[j].0 {
        if i == 0 {
          assert r[j].0 == t[j - 1].0;
          if t[j - 1].0 == b[0].0 {
            assert HasKey(t, b[0].0);
          }
        }
      }
    }
  }

  /** Buckets that all hold zero add up to zero and read zero under any key. */
  lemma {:induction false} ZeroBuckets<K>(b: Buckets<K>, k: K)
    requires forall i :: 0 <= i < |b| ==> b[i].1 == 0.0
    ensures Total(b) == 0.0 && Lookup(b, k) == 0.0
  {
    if b != [] {
      ZeroBuckets(b[1..], k);
    }
  }

  /** The running tally of `(key, amount)` pairs in order (the `for ... of` loop). */
  function Tally<K(==)>(b: Buckets<K>, xs: seq<(K, real)>): (r: Buckets<K>)
    ensures |r| >= |b|
    ensures forall i :: 0 <= i < |b| ==> r[i].0 == b[i].0
    decreases |xs|
  {
    if xs == [] then b else Tally(AddTo(b, xs[0].0, xs[0].1), xs[1..])
  }

  function SumAmounts<K>(xs: seq<(K, real)>): real {
    if xs == [] then 0.0 else xs[0].1 + SumAmounts(xs[1..])
  }

  function SumFor<K(==)>(xs: seq<(K, real)>, k: K): real {
    if xs == [] then 0.0 else (if xs[0].0 == k then xs[0].1 else 0.0) + SumFor(xs[1..], k)
  }

  /** A tally adds to the total exactly the amounts it was given. */
  lemma {:induction false} TallyTotal<K>(b: Buckets<K>, xs: seq<(K, real)>)
    ensures Total(Tally(b, xs)) == Total(b) + SumAmounts(xs)
    decreases |xs|
  {
    if xs != [] {
      AddToTotal(b, xs[0].0, xs[0].1);
      TallyTotal(AddTo(b, xs[0].0, xs[0].1), xs[1..]);
    }
  }

  /** Each bucket of a tally holds what it held plus the amounts given under its key. */
  lemma {:induction false} TallyLookup<K>(b: Buckets<K>, xs: seq<(K, real)>, k: K)
    ensures Lookup(Tally(b, xs), k) == Lookup(b, k) + SumFor(xs, k)
    decreases |xs|
  {
    if xs != [] {
      AddToLookup(b, xs[0].0, xs[0].1, k);
      TallyLookup(AddTo(b, xs[0].0, xs[0].1), xs[1..], k);
    }
  }

  /** A tally keeps keys unique. */
  lemma {:induction false} TallyKeysUnique<K>(b: Buckets<K>, xs: seq<(K, real)>)
    requires KeysUnique(b)
    ensures KeysUnique(Tally(b, xs))
    decreases |xs|
  {
    if xs != [] {
      AddToKeys(b, xs[0].0, xs[0].1);
      TallyKeysUnique(AddTo(b, xs[0].0, xs[0].1), xs[1..]);
    }
  }

  /** Some pair of `xs` has key `k`. */
  predicate Occurs<K(==)>(xs: seq<(K, real)>, k: K) {
    exists i :: 0 <= i < |xs| && xs[i].0 == k
  }

  /** A tally holds exactly the keys it started with and the keys it was given. */
  lemma {:induction false} TallyHasKey<K>(b: Buckets<K>, xs: seq<(K, real)>)
    requires KeysUnique(b)
    ensures forall k :: HasKey(Tally(b, xs), k) <==> HasKey(b, k) || Occurs(xs, k)
    decreases |xs|
  {
    if xs != [] {
      var b' := AddTo(b, xs[0].0, xs[0].1);
      AddToKeys(b, xs[0].0, xs[0].1);
      TallyHasKey(b', xs[1..]);
      forall k ensures Occurs(xs, k) <==> k == xs[0].0 || Occurs(xs[1..], k) {
        if Occurs(xs, k) {
          var i :| 0 <= i < |xs| && xs[i].0 == k;
          if i > 0 {
            assert xs[1..][i - 1].0 == k;
          }
        }
        if Occurs(xs[1..], k) {
          var i :| 0 <= i < |xs[1..]| && xs[1..][i].0 == k;
          assert xs[i + 1].0 == k;
        }
      }
    }
  }

  // ---------- by payment method ----------

  /** `m.metodoPago || "—"`. */
  function MethodKey(m: Movement): string {
    if m.entry.payMethod == "" then NoMethod else m.entry.payMethod
  }

  /** The buckets the cash view starts from, all at zero. */
  const MethodBuckets: Buckets<string> :=
    [("Efectivo", 0.0), ("Yape/Plin", 0.0), ("Transferencia", 0.0), ("Tarjeta", 0.0), (NoMethod, 0.0)]

  function MethodPairs(day: seq<Movement>): (r: seq<(string, real)>)
    ensures |r| == |day|
    ensures forall i :: 0 <= i < |day| ==> r[i] == (MethodKey(day[i]), Signed(day[i]))
  {
    seq(|day|, i requires 0 <= i < |day| => (MethodKey(day[i]), Signed(day[i])))
  }

  /** `porMetodo`: the net of the day split by payment method. The five methods of the
      shop come first, in their order; any other method the day used follows, once. */
  function ByMethod(day: seq<Movement>): (r: Buckets<string>)
    ensures |r| >= |MethodBuckets|
    ensures forall i :: 0 <= i < |MethodBuckets| ==> r[i].0 == MethodBuckets[i].0
    ensures KeysUnique(r)
    ensures forall k :: HasKey(r, k) <==> HasKey(MethodBuckets, k) || exists i :: 0 <= i < |day| && MethodKey(day[i]) == k
  {
    var xs := MethodPairs(day);
    TallyKeysUnique(MethodBuckets, xs);
    TallyHasKey(MethodBuckets, xs);
    assert forall k :: Occurs(xs, k) <==> exists i :: 0 <= i < |day| && MethodKey(day[i]) == k;
    Tally(MethodBuckets, xs)
  }

  /** The net of the movements paid with method `k`, computed independently of the buckets. */
  function MethodNet(day: seq<Movement>, k: string): real {
    if day == [] then 0.0 else (if MethodKey(day[0]) == k then Signed(day[0]) else 0.0) + MethodNet(day[1..], k)
  }

  lemma {:induction false} SumAmountsOfMethodPairs(day: seq<Movement>)
    ensures SumAmounts(MethodPairs(day)) == SignedSum(day)
  {
    if day != [] {
      assert MethodPairs(day)[1..] == MethodPairs(day[1..]);
      SumAmountsOfMethodPairs(day[1..]);
    }
  }

  lemma {:induction false} SumForOfMethodPairs(day: seq<Movement>, k: string)
    ensures SumFor(MethodPairs(day), k) == MethodNet(day, k)
  {
    if day != [] {
      assert MethodPairs(day)[1..] == MethodPairs(day[1..]);
      SumForOfMethodPairs(day[1..], k);
    }
  }

  /** Every movement lands in exactly one method bucket, so the buckets add up to the net. */
  lemma BucketsSumToNet(day: seq<Movement>)
    ensures Total(ByMethod(day)) == Net(day)
  {
    ZeroBuckets(MethodBuckets, NoMethod);
    TallyTotal(MethodBuckets, MethodPairs(day));
    SumAmountsOfMethodPairs(day);
    NetIsSignedSum(day);
  }

  /** The bucket of method `k` holds the net of the movements paid with `k` (a blank
      method counted under "—"), and no method appears twice. */
  lemma ByMethodLookup(day: seq<Movement>, k: string)
    ensures Lookup(ByMethod(day), k) == MethodNet(day, k)
    ensures KeysUnique(ByMethod(day))
  {
    ZeroBuckets(MethodBuckets, k);
    TallyLookup(MethodBuckets, MethodPairs(day), k);
    SumForOfMethodPairs(day, k);
    TallyKeysUnique(MethodBuckets, MethodPairs(day));
  }

  /** `byMetodo` of the printed day report: the same signed sums by payment method, but
      starting from no buckets, so only the methods the day used appear, each once. */
  function ReportByMethod(day: seq<Movement>): (r: Buckets<string>)
    ensures KeysUnique(r)
    ensures forall k :: HasKey(r, k) <==> exists i :: 0 <= i < |day| && MethodKey(day[i]) == k
    ensures forall k :: Lookup(r, k) == MethodNet(day, k)
  {
    var xs := MethodPairs(day);
    assert forall k :: Lookup(Tally([], xs), k) == MethodNet(day, k) by {
      forall k ensures Lookup(Tally([], xs), k) == MethodNet(day, k) {
        TallyLookup([], xs, k);
        SumForOfMethodPairs(day, k);
      }
    }
    TallyKeysUnique([], xs);
    TallyHasKey([], xs);
    assert forall k :: Occurs(xs, k) <==> exists i :: 0 <= i < |day| && MethodKey(day[i]) == k;
    Tally([], xs)
  }

  /** The printed report and the cash view agree on every method's figure and on the
      total: they differ only in the view's zero buckets for unused preset methods. */
  lemma ReportAgreesWithView(day: seq<Movement>, k: string)
    ensures Lookup(ReportByMethod(day), k) == Lookup(ByMethod(day), k)
    ensures Total(ReportByMethod(day)) == Total(ByMethod(day)) == Net(day)
  {
    ByMethodLookup(day, k);
    BucketsSumToNet(day);
    TallyTotal([], MethodPairs(day));
    SumAmountsOfMethodPairs(day);
    NetIsSignedSum(day);
  }

  // ---------- by kind ----------

  function KindPairs(day: seq<Movement>): (r: seq<(Kind, real)>)
    ensures |r| == |day|
    ensures forall i :: 0 <= i < |day| ==> r[i] == (day[i].entry.kind, day[i].entry.amount)
  {
    seq(|day|, i requires 0 <= i < |day| => (day[i].entry.kind, day[i].entry.amount))
  }

  /** `byTipo` of the printed day report: the amounts summed by kind, unsigned. A kind has
      a bucket, exactly one, iff some movement of the day is of that kind. */
  function ByKind(day: seq<Movement>): (r: Buckets<Kind>)
    ensures KeysUnique(r)
    ensures forall k :: HasKey(r, k) <==> exists i :: 0 <= i < |day| && day[i].entry.kind == k
    ensures forall k :: Lookup(r, k) == KindSum(day, k)
  {
    var xs := KindPairs(day);
    assert forall k :: Lookup(Tally([], xs), k) == KindSum(day, k) by {
      forall k ensures Lookup(Tally([], xs), k) == KindSum(day, k) {
        TallyLookup([], xs, k);
        SumForOfKindPairs(day, k);
      }
    }
    TallyKeysUnique([], xs);
    TallyHasKey([], xs);
    assert forall k :: Occurs(xs, k) <==> exists i :: 0 <= i < |day| && day[i].entry.kind == k;
    Tally([], xs)
  }

  lemma {:induction false} SumAmountsOfKindPairs(day: seq<Movement>)
    ensures SumAmounts(KindPairs(day)) == Income(day) + Outflow(day)
  {
    if day != [] {
      assert KindPairs(day)[1..] == KindPairs(day[1..]);
      SumAmountsOfKindPairs(day[1..]);
    }
  }

  /** The amounts of the movements of kind `k`, computed independently of the buckets. */
  function KindSum(day: seq<Movement>, k: Kind): real {
    if day == [] then 0.0 else (if day[0].entry.kind == k then day[0].entry.amount else 0.0) + KindSum(day[1..], k)
  }

  lemma {:induction false} SumForOfKindPairs(day: seq<Movement>, k: Kind)
    ensures SumFor(KindPairs(day), k) == KindSum(day, k)
  {
    if day != [] {
      assert KindPairs(day)[1..] == KindPairs(day[1..]);
      SumForOfKindPairs(day[1..], k);
    }
  }

  /** The expenses of the cash view are the movements of kind Expense. */
  lemma {:induction false} ExpenseKindSum(day: seq<Movement>)
    ensures KindSum(day, Expense) == Outflow(day)
  {
    if day != [] {
      ExpenseKindSum(day[1..]);
    }
  }

  /** The report's per-kind totals agree with the cash view: the expense bucket is `egr`,
      all buckets together are `ing + egr`, and no kind appears twice. */
  lemma ByKindAgrees(day: seq<Movement>)
    ensures Lookup(ByKind(day), Expense) == Outflow(day)
    ensures Total(ByKind(day)) == Income(day) + Outflow(day)
    ensures KeysUnique(ByKind(day))
  {
    ExpenseKindSum(day);
    TallyTotal([], KindPairs(day));
    SumAmountsOfKindPairs(day);
    TallyKeysUnique([], KindPairs(day));
  }

  // ---------- the count ----------

  /** `Number(b || 0)` summed over the counted amounts, a blank field being zero. */
  function Counted(counted: seq<Option<real>>): real {
    if counted == [] then 0.0 else counted[0].GetOr(0.0) + Counted(counted[1..])
  }

  datatype CashCount = CashCount(income: real, outflow: real, net: real, counted: real, difference: real, balanced: bool)

  /** The cash view: the journal's figures, the counted cash, the difference and whether
      the till is balanced (off by less than one unit either way). */
  function Count(day: seq<Movement>, counted: seq<Option<real>>): (r: CashCount)
    ensures r.income == Income(day) && r.outflow == Outflow(day) && r.counted == Counted(counted)
    ensures r.net == r.income - r.outflow
    ensures r.difference == r.counted - r.net
    ensures r.balanced <==> r.net - 1.0 < r.counted < r.net + 1.0
  {
    var net := Net(day);
    var diff := Counted(counted) - net;
    CashCount(Income(day), Outflow(day), net, Counted(counted), diff, Abs(diff) < 1.0)
  }

  /** The till is balanced exactly when the counted cash is within one unit of the sum of
      the method buckets. */
  lemma BalancedAgainstBuckets(day: seq<Movement>, counted: seq<Option<real>>)
    ensures Count(day, counted).balanced <==> Abs(Counted(counted) - Total(ByMethod(day))) < 1.0
  {
    BucketsSumToNet(day);
  }

  /** A sale of 100 and an expense of 30, both in cash, against 70 counted in cash: income
      100, expenses 30, net 70, the cash bucket at 70, and the till balanced. */
  lemma CashScenario(st1: Stamp, st2: Stamp, sale: Entry, expense: Entry)
    requires sale.kind == Sale && sale.amount == 100.0 && sale.payMethod == "Efectivo"
    requires expense.kind == Expense && expense.amount == 30.0 && expense.payMethod == "Efectivo"
    ensures var day := Journal.Record(Journal.Record([], st1, sale), st2, expense);
            var c := Count(day, [Some(70.0), None, None, None]);
            && c.income == 100.0 && c.outflow == 30.0 && c.net == 70.0
            && Lookup(ByMethod(day), "Efectivo") == 70.0
            && c.balanced
  {
    var day := Journal.Record(Journal.Record([], st1, sale), st2, expense);
    assert day == [Movement(st2, expense), Movement(st1, sale)];
    assert day[1..] == [Movement(st1, sale)] && day[1..][1..] == [];
    var rest := day[1..];
    assert Income(rest[1..]) == 0.0 && Outflow(rest[1..]) == 0.0 && MethodNet(rest[1..], "Efectivo") == 0.0;
    assert Income(rest) == 100.0 && Outflow(rest) == 0.0 && MethodNet(rest, "Efectivo") == 100.0;
    assert Income(day) == 100.0 && Outflow(day) == 30.0 && MethodNet(day, "Efectivo") == 70.0;
    var counted: seq<Option<real>> := [Some(70.0), None, None, None];
    assert counted[1..][1..][1..][1..] == [];
    assert Counted(counted) == 70.0;
    ByMethodLookup(day, "Efectivo");
  }
}

=== FILE: records.dfy ===
/** The shop's records: catalog items, the lines of a cart or order, movements of the
    cash journal, clients and service orders, and the three ledgers held together. */
module Records {
  import opened Common

  // ---------- inventory ----------

  /** A catalog entry. Purchase cost and sale price are kept as entered (`None` = left
      blank); stock and minimum stock are coerced to whole numbers. */
  datatype Item = Item(
    id: string,
    sku: string,
    name: string,
    category: string,
    quality: string,
    cost: Option<real>,
    price: Option<real>,
    stock: int,
    stockMin: int,
    location: string,
    compat: string,
    supplier: string,
    note: string)

  /** The catalog form as typed: numeric fields may be blank. */
  datatype ItemDraft = ItemDraft(
    sku: string,
    name: string,
    category: string,
    quality: string,
    cost: Option<real>,
    price: Option<real>,
    stock: Option<int>,
    stockMin: Option<int>,
    location: string,
    compat: string,
    supplier: string,
    note: string)

  /** A cart or order line: a snapshot of the item, the item it refers to when the line
      was added from an order form (`invId`), and the quantity, where 0 stands for the
      field being absent. */
  datatype Line = Line(item: Item, invId: Option<string>, qty: int) {

    /** Whether this line refers to the catalog item with identifier `id`, by its own
        identifier or by its `invId`. */
    predicate Matches(id: string) {
      item.id == id || invId == Some(id)
    }
  }

  /** `Number(x || 0)`: a blank amount reads as 0. */
  function AmountOf(p: Option<real>): real {
    p.GetOr(0.0)
  }

  // ---------- clients ----------

  datatype Client = Client(id: string, name: string, dni: string, phone: string, address: string, tag: string)

  /** The client recorded on a sale that names no one ("Público General"). */
  const WalkIn: Client := Client("", "Público General", "", "", "", "")

  /** The first client with identifier `id`, if any (`clientes.find`). */
  function FindClient(clients: seq<Client>, id: string): (r: Option<Client>)
    ensures r.Some? ==> r.value in clients && r.value.id == id
    ensures r.None? ==> forall c :: c in clients ==> c.id != id
  {
    if clients == [] then None
    else if clients[0].id == id then Some(clients[0])
    else FindClient(clients[1..], id)
  }

  // ---------- cash journal ----------

  /** The movement kinds: `VENTA`, `SERVICIO`, `GASTO` and `INVENTARIO`. */
  datatype Kind = Sale | Service | Expense | StockAudit

  /** The structured payload a movement may carry. */
  datatype Detail =
    | NoDetail
    | CartItems(items: seq<Line>)
    | Adjustment(invId: string, delta: int, reason: string)
    | DiagnosticFee

  /** What an operation asks the journal to record. */
  datatype Entry = Entry(kind: Kind, payMethod: string, amount: real, description: string, client: Option<Client>, detail: Detail)

  /** The identifier, clock time and calendar date the journal stamps on a new movement. */
  datatype Stamp = Stamp(id: string, time: string, date: string)

  datatype Movement = Movement(stamp: Stamp, entry: Entry)

  /** The sentinel payment method of movements that carry no money. */
  const NoMethod: string := "—"

  // ---------- service orders ----------

  /** The statuses of `ESTADOS_OT`, in order. */
  datatype Status = Received | Diagnosis | AwaitingApproval | InRepair | Ready | Delivered | Voided

  /** The device-access record; credentials are either kept verbatim or dropped with a note. */
  datatype Access = Access(
    lockType: string,
    allowBackup: bool,
    gmail: string,
    icloud: string,
    code: string,
    password: string,
    pattern: string,
    keepCredentials: bool,
    note: string)

  /** The signed consent declaration; `signature` is the opaque image reference of the
      signature pad, empty when unsigned. */
  datatype Consent = Consent(
    required: bool,
    accepted: bool,
    signerName: string,
    signerDni: string,
    intake: string,
    remarks: string,
    signature: string,
    signedAt: string)

  /** The diagnostic-fee sub-record. */
  datatype Fee = Fee(applies: bool, amount: real, charged: bool, payMethod: string, chargedAt: string)

  /** The fee sub-form as typed: the amount may be blank. */
  datatype FeeForm = FeeForm(applies: bool, amount: Option<real>, charged: bool, payMethod: string, chargedAt: string)

  datatype Work = Work(fault: string, diagnosis: string, plan: string, warranty: int)

  datatype Order = Order(
    id: string,
    date: string,
    client: Option<Client>,
    technician: string,
    imei: string,
    work: Work,
    labor: Option<real>,
    logistics: Option<real>,
    advance: real,
    advanceMethod: string,
    parts: seq<Line>,
    access: Access,
    consent: Consent,
    fee: Fee,
    total: real,
    balance: real,
    status: Status)

  /** The new-order form as typed. */
  datatype OrderForm = OrderForm(
    clientId: string,
    technician: string,
    imei: string,
    work: Work,
    labor: Option<real>,
    logistics: Option<real>,
    advance: Option<real>,
    advanceMethod: string,
    parts: seq<Line>,
    access: Access,
    consent: Consent,
    fee: FeeForm)

  // ---------- the three ledgers ----------

  /** The catalog, the service orders and the movements of the active day. */
  datatype Shop = Shop(inventory: seq<Item>, orders: seq<Order>, day: seq<Movement>)
}

=== FILE: text.dfy ===
/** String helpers the shop relies on: JavaScript's `trim`, `toLowerCase`, and decimal
    rendering and reading of whole numbers. */
module Text {

  /** The white-space characters `String.prototype.trim` removes, as far as this model knows them. */
  predicate IsSpace(c: char) {
    || c == ' ' || c == '\t' || c == '\n' || c == '\r'
    || c == '\U{000B}' || c == '\U{000C}' || c == '\U{00A0}'
    || c == '\U{2028}' || c == '\U{2029}' || c == '\U{FEFF}'
  }

  predicate AllSpace(s: string) {
    forall i :: 0 <= i < |s| ==> IsSpace(s[i])
  }

  /** `s` with its leading white space removed. */
  function TrimStart(s: string): (r: string)
    ensures |r| <= |s| && r == s[|s| - |r|..]
    ensures AllSpace(s[..|s| - |r|])
    ensures r == [] || !IsSpace(r[0])
    ensures r == [] <==> AllSpace(s)
  {
    if |s| > 0 && IsSpace(s[0]) then
      var r := TrimStart(s[1..]);
      assert s[..|s| - |r|] == [s[0]] + s[1..][..|s| - 1 - |r|];
      r
    else
      s
  }

  /** `s` with its trailing white space removed. */
  function TrimEnd(s: string): (r: string)
    ensures |r| <= |s| && r == s[..|r|]
    ensures AllSpace(s[|r|..])
    ensures r == [] || !IsSpace(r[|r| - 1])
    ensures r == [] <==> AllSpace(s)
  {
    if |s| > 0 && IsSpace(s[|s| - 1]) then
      var r := TrimEnd(s[..|s| - 1]);
      assert s[|r|..] == s[..|s| - 1][|r|..] + [s[|s| - 1]];
      r
    else
      s
  }

  /** JavaScript's `trim`: white space removed at both ends. */
  function Trim(s: string): (r: string)
    ensures |r| <= |s|
    ensures r == [] || (!IsSpace(r[0]) && !IsSpace(r[|r| - 1]))
    ensures r == [] <==> AllSpace(s)
  {
    TrimEnd(TrimStart(s))
  }

  /** A field the shop treats as empty: nothing but white space, that is, a field whose
      trim is empty (`!s.trim()`, see the last postcondition of `Trim`). */
  predicate IsBlank(s: string) {
    AllSpace(s)
  }

  /** `toLowerCase` on one character: ASCII and Latin-1 capitals (Ñ, Á, É, ...). */
  function LowerChar(c: char): (r: char)
    ensures IsSpace(r) <==> IsSpace(c)
  {
    if 'A' <= c <= 'Z' || ('\U{00C0}' <= c <= '\U{00DE}' && c != '\U{00D7}') then
      (c as int + 32) as char
    else
      c
  }

  function Lower(s: string): (r: string)
    ensures |r| == |s|
    ensures forall i :: 0 <= i < |s| ==> r[i] == LowerChar(s[i])
  {
    seq(|s|, i requires 0 <= i < |s| => LowerChar(s[i]))
  }

  /** The form under which two SKUs are compared: trimmed, then lower-cased. */
  function Key(s: string): string {
    Lower(Trim(s))
  }

  lemma LowerIdempotent(s: string)
    ensures Lower(Lower(s)) == Lower(s)
  {
  }

  lemma {:induction false} TrimStartAfterSpaces(sp: string, s: string)
    requires AllSpace(sp)
    ensures TrimStart(sp + s) == TrimStart(s)
  {
    if sp != [] {
      assert (sp + s)[1..] == sp[1..] + s;
      TrimStartAfterSpaces(sp[1..], s);
    } else {
      assert sp + s == s;
    }
  }

  lemma {:induction false} TrimEndBeforeSpaces(s: string, sp: string)
    requires AllSpace(sp)
    ensures TrimEnd(s + sp) == TrimEnd(s)
  {
    if sp != [] {
      assert (s + sp)[..|s + sp| - 1] == s + sp[..|sp| - 1];
      TrimEndBeforeSpaces(s, sp[..|sp| - 1]);
    } else {
      assert s + sp == s;
    }
  }

  lemma {:induction false} TrimStartOfConcat(s: string, t: string)
    ensures !AllSpace(s) ==> TrimStart(s + t) == TrimStart(s) + t
    ensures AllSpace(s) ==> TrimStart(s + t) == TrimStart(t)
  {
    if s == [] {
      assert s + t == t;
    } else if IsSpace(s[0]) {
      assert (s + t)[1..] == s[1..] + t;
      TrimStartOfConcat(s[1..], t);
      if AllSpace(s[1..]) {
        assert AllSpace(s);
      }
    } else {
      assert !AllSpace(s);
    }
  }

  /** SKU comparison ignores white space around the code. */
  lemma KeyIgnoresPadding(before: string, s: string, after: string)
    requires AllSpace(before) && AllSpace(after)
    ensures Key(before + s + after) == Key(s)
  {
    assert before + s + after == before + (s + after);
    TrimStartAfterSpaces(before, s + after);
    TrimStartOfConcat(s, after);
    if AllSpace(s) {
      assert TrimStart(after) == [];
      assert TrimStart(s) == [];
    } else {
      TrimEndBeforeSpaces(TrimStart(s), after);
    }
  }

  lemma {:induction false} TrimStartLower(s: string)
    ensures TrimStart(Lower(s)) == Lower(TrimStart(s))
  {
    if |s| > 0 && IsSpace(s[0]) {
      assert Lower(s)[1..] == Lower(s[1..]);
      TrimStartLower(s[1..]);
    }
  }

  lemma {:induction false} TrimEndLower(s: string)
    ensures TrimEnd(Lower(s)) == Lower(TrimEnd(s))
  {
    if |s| > 0 && IsSpace(s[|s| - 1]) {
      assert Lower(s)[..|s| - 1] == Lower(s[..|s| - 1]);
      TrimEndLower(s[..|s| - 1]);
    }
  }

  /** SKU comparison ignores letter case, and a key is its own key. */
  lemma KeyIgnoresCase(s: string)
    ensures Key(Lower(s)) == Key(s)
    ensures Key(Key(s)) == Key(s)
  {
    TrimStartLower(s);
    TrimEndLower(TrimStart(s));
    LowerIdempotent(Trim(s));
    var t := Trim(s);
    TrimStartLower(t);
    TrimEndLower(TrimStart(t));
    assert TrimStart(t) == t;
    assert TrimEnd(t) == t;
  }

  // ---- whole numbers as decimal text ----

  predicate IsDigit(c: char) {
    '0' <= c <= '9'
  }

  predicate AllDigits(s: string) {
    forall i :: 0 <= i < |s| ==> IsDigit(s[i])
  }

  function DigitChar(d: nat): (c: char)
    requires d < 10
    ensures IsDigit(c)
  {
    ('0' as int + d) as char
  }

  function DigitValue(c: char): (d: nat)
    requires IsDigit(c)
    ensures d < 10
  {
    c as int - '0' as int
  }

  /** The decimal rendering JavaScript gives a non-negative whole number. */
  function NatToString(n: nat): (r: string)
    ensures |r| >= 1 && AllDigits(r)
    ensures n >= 10 ==> r[0] != '0'
  {
    if n < 10 then [DigitChar(n)] else NatToString(n / 10) + [DigitChar(n % 10)]
  }

  function IntToString(i: int): (r: string)
    ensures |r| >= 1
    ensures (r[0] == '-') <==> i < 0
  {
    if i < 0 then "-" + NatToString(-i) else NatToString(i)
  }

  /** The value of a string of decimal digits (`Number` on such a string). */
  function ParseDigits(s: string): nat
    requires AllDigits(s)
  {
    if s == [] then 0 else ParseDigits(s[..|s| - 1]) * 10 + DigitValue(s[|s| - 1])
  }

  /** Reading back a rendered number gives the number. */
  lemma {:induction false} ParseNatToString(n: nat)
    ensures ParseDigits(NatToString(n)) == n
  {
    if n >= 10 {
      var s := NatToString(n);
      assert s[..|s| - 1] == NatToString(n / 10);
      ParseNatToString(n / 10);
    }
  }
}

=== FILE: widgets.dfy ===
/** The two input widgets of the device-access form: the pattern lock, whose drawn
    sequence of nodes 1-9 travels through the form as text such as "1-5-9", and the PIN
    pad, which types characters up to a length cap. */
module Widgets {
  import opened Common
  import opened Text

  // ---------- pattern text ----------

  /** `String.prototype.split("-")`: the pieces between dashes, at least one. */
  function Split(s: string): (r: seq<string>)
    ensures |r| >= 1
  {
    if s == [] then [""]
    else if s[0] == '-' then [""] + Split(s[1..])
    else
      var t := Split(s[1..]);
      [[s[0]] + t[0]] + t[1..]
  }

  predicate NoDash(s: string) {
    forall i :: 0 <= i < |s| ==> s[i] != '-'
  }

  /** `Number(x)` on one piece, for pieces of plain decimal digits; anything else is
      treated as not a number. */
  function PieceValue(x: string): Option<nat> {
    if x != [] && AllDigits(x) then Some(ParseDigits(x)) else None
  }

  predicate IsNode(n: nat) {
    1 <= n <= 9
  }

  /** Some piece reads as the number `v`. */
  predicate PieceReads(pieces: seq<string>, v: nat) {
    exists i :: 0 <= i < |pieces| && PieceValue(pieces[i]) == Some(v)
  }

  /** The pieces that are numbers 1 to 9, as numbers, in order (the `filter` of `parseSeq`):
      a node is kept exactly when some piece reads as it. */
  function Nodes(pieces: seq<string>): (r: seq<nat>)
    ensures forall i :: 0 <= i < |r| ==> IsNode(r[i])
    ensures |r| <= |pieces|
    ensures forall v :: v in r <==> IsNode(v) && PieceReads(pieces, v)
  {
    if pieces == [] then []
    else
      var v := PieceValue(pieces[0]);
      (if v.Some? && IsNode(v.value) then [v.value] else []) + Nodes(pieces[1..])
  }

  /** `parseSeq`: the nodes of a pattern text; an empty text is the empty pattern. */
  function ParseSeq(s: string): (r: seq<nat>)
    ensures forall i :: 0 <= i < |r| ==> IsNode(r[i])
    ensures s == [] ==> r == []
  {
    if s == [] then [] else Nodes(Split(s))
  }

  /** The pieces are read one by one, each node kept in its place: reading a list of pieces
      is reading its parts in turn, and a single piece gives its node or nothing. */
  lemma {:induction false} NodesPieceByPiece(a: seq<string>, b: seq<string>, x: string)
    ensures Nodes(a + b) == Nodes(a) + Nodes(b)
    ensures Nodes([x]) == if PieceValue(x).Some? && IsNode(PieceValue(x).value) then [PieceValue(x).value] else []
  {
    assert [x][1..] == [];
    if a == [] {
      assert a + b == b;
    } else {
      assert (a + b)[1..] == a[1..] + b;
      NodesPieceByPiece(a[1..], b, x);
    }
  }

  /** `newSeq.join("-")`. */
  function Join(xs: seq<nat>): string {
    if xs == [] then ""
    else if |xs| == 1 then NatToString(xs[0])
    else NatToString(xs[0]) + "-" + Join(xs[1..])
  }

  /** What `commit` hands to the form: the joined nodes, or "" for no nodes. */
  function PatternText(xs: seq<nat>): (r: string)
    ensures r == [] <==> xs == []
  {
    if xs == [] then "" else Join(xs)
  }

  lemma {:induction false} SplitNoDash(a: string)
    requires NoDash(a)
    ensures Split(a) == [a]
  {
    if a != [] {
      SplitNoDash(a[1..]);
      assert [a[0]] + a[1..] == a;
    }
  }

  lemma {:induction false} SplitAtDash(a: string, b: string)
    requires NoDash(a)
    ensures Split(a + "-" + b) == [a] + Split(b)
  {
    if a == [] {
      assert a + "-" + b == "-" + b;
      assert ("-" + b)[1..] == b;
    } else {
      var s := a + "-" + b;
      assert s[0] == a[0] && s[0] != '-';
      assert s[1..] == a[1..] + "-" + b;
      SplitAtDash(a[1..], b);
      assert [a[0]] + a[1..] == a;
    }
  }

  /** `parseSeq` reads a pattern text piece by piece: the piece before the first dash, then
      the rest; a text without a dash is a single piece. */
  lemma ParseSeqPieceByPiece(a: string, b: string)
    requires NoDash(a)
    ensures ParseSeq(a) == Nodes([a])
    ensures ParseSeq(a + "-" + b) == Nodes([a]) + ParseSeq(b)
  {
    SplitNoDash(a);
    SplitAtDash(a, b);
    NodesPieceByPiece([a], Split(b), a);
    if b == [] {
      NodesPieceByPiece([], [], "");
      assert PieceValue("") == None;
    }
  }

  /** A rendered node, read as one piece, gives that node back. */
  lemma NodesOfRenderedNode(n: nat)
    requires IsNode(n)
    ensures Nodes([NatToString(n)]) == [n]
  {
    NodesPieceByPiece([], [], NatToString(n));
    ParseNatToString(n);
  }

  /** A piece that is not a node is skipped: between two nodes, as in "1-x-3", it leaves
      just the two nodes. */
  lemma ParseSeqSkipsJunk(m: nat, x: string, n: nat)
    requires IsNode(m) && IsNode(n) && NoDash(x)
    requires !(PieceValue(x).Some? && IsNode(PieceValue(x).value))
    ensures ParseSeq(NatToString(m) + "-" + x + "-" + NatToString(n)) == [m, n]
  {
    var a, c := NatToString(m), NatToString(n);
    DigitsHaveNoDash(a);
    DigitsHaveNoDash(c);
    assert a + "-" + x + "-" + c == a + "-" + (x + "-" + c);
    ParseSeqPieceByPiece(a, x + "-" + c);
    ParseSeqPieceByPiece(x, c);
    ParseSeqPieceByPiece(c, "");
    NodesPieceByPiece([], [], x);
    NodesOfRenderedNode(m);
    NodesOfRenderedNode(n);
  }

  lemma DigitsHaveNoDash(s: string)
    requires AllDigits(s)
    ensures NoDash(s)
  {
    forall i | 0 <= i < |s| ensures s[i] != '-' {
      assert IsDigit(s[i]);
    }
  }

  /** Reading the joined nodes splits them back into one rendered number per node. */
  lemma {:induction false} SplitJoin(xs: seq<nat>)
    requires xs != []
    ensures Split(Join(xs)) == seq(|xs|, i requires 0 <= i < |xs| => NatToString(xs[i]))
  {
    DigitsHaveNoDash(NatToString(xs[0]));
    if |xs| == 1 {
      SplitNoDash(NatToString(xs[0]));
    } else {
      SplitAtDash(NatToString(xs[0]), Join(xs[1..]));
      SplitJoin(xs[1..]);
    }
  }

  lemma {:induction false} NodesOfRendered(xs: seq<nat>)
    requires forall i :: 0 <= i < |xs| ==> IsNode(xs[i])
    ensures Nodes(seq(|xs|, i requires 0 <= i < |xs| => NatToString(xs[i]))) == xs
  {
    if xs != [] {
      var ps := seq(|xs|, i requires 0 <= i < |xs| => NatToString(xs[i]));
      assert ps[1..] == seq(|xs[1..]|, i requires 0 <= i < |xs[1..]| => NatToString(xs[1..][i]));
      ParseNatToString(xs[0]);
      NodesOfRendered(xs[1..]);
    }
  }

  /** A pattern survives the trip through the form: the text `commit` emits is read back
      by `parseSeq` as the same nodes. */
  lemma ParsePatternText(xs: seq<nat>)
    requires forall i :: 0 <= i < |xs| ==> IsNode(xs[i])
    ensures ParseSeq(PatternText(xs)) == xs
  {
    if xs != [] {
      SplitJoin(xs);
      NodesOfRendered(xs);
      assert Join(xs) != [] by {
        if |xs| > 1 {
          assert |Join(xs)| >= |NatToString(xs[0])|;
        }
      }
    }
  }

  // ---------- pattern lock ----------

  /** No node follows itself. */
  predicate NoImmediateRepeat(xs: seq<nat>) {
    forall i :: 0 < i < |xs| ==> xs[i] != xs[i - 1]
  }

  predicate Distinct(xs: seq<nat>) {
    forall i, j :: 0 <= i < j < |xs| ==> xs[i] != xs[j]
  }

  /** `addNode`: the pointer reached node `idx`. No node (0), the node just drawn, or an
      already drawn node when repeats are off leave the pattern as it is (`None`: nothing
      is committed); otherwise the node is appended and the pattern committed. */
  function AddNode(xs: seq<nat>, idx: nat, allowRepeat: bool): (r: Option<seq<nat>>)
    ensures r.Some? <==> idx != 0 && (xs == [] || xs[|xs| - 1] != idx) && (allowRepeat || idx !in xs)
    ensures r.Some? ==> r.value == xs + [idx]
  {
    if idx == 0 then None
    else if xs != [] && xs[|xs| - 1] == idx then None
    else if !allowRepeat && idx in xs then None
    else Some(xs + [idx])
  }

  /** A pattern drawn node by node never has a node twice in a row, and with repeats off
      never has a node twice at all. */
  lemma AddNodeKeepsShape(xs: seq<nat>, idx: nat, allowRepeat: bool)
    requires AddNode(xs, idx, allowRepeat).Some?
    ensures NoImmediateRepeat(xs) ==> NoImmediateRepeat(AddNode(xs, idx, allowRepeat).value)
    ensures !allowRepeat && Distinct(xs) ==> Distinct(AddNode(xs, idx, allowRepeat).value)
  {
    var r := xs + [idx];
    if !allowRepeat && Distinct(xs) {
      forall i, j | 0 <= i < j < |r| ensures r[i] != r[j] {
        if j == |xs| {
          assert r[i] == xs[i];
        }
      }
    }
  }

  /** Drawing a node on a pattern of nodes commits a text that reads back as the longer
      pattern. */
  lemma AddNodeCommits(xs: seq<nat>, idx: nat, allowRepeat: bool)
    requires forall i :: 0 <= i < |xs| ==> IsNode(xs[i])
    requires IsNode(idx) && AddNode(xs, idx, allowRepeat).Some?
    ensures ParseSeq(PatternText(AddNode(xs, idx, allowRepeat).value)) == xs + [idx]
  {
    ParsePatternText(xs + [idx]);
  }

  // ---------- PIN pad ----------

  /** `push`: one more character unless the value already has `maxLen` of them (`None`:
      nothing is emitted). */
  function Push(value: string, ch: char, maxLen: nat): (r: Option<string>)
    ensures r.Some? <==> |value| < maxLen
    ensures r.Some? ==> r.value == value + [ch]
  {
    if |value| >= maxLen then None else Some(value + [ch])
  }

  /** `back`: the last character removed (`slice(0, -1)`), nothing on an empty value. */
  function Back(value: string): (r: string)
    ensures value == [] ==> r == []
    ensures value != [] ==> r + [value[|value| - 1]] == value
  {
    if value == [] then [] else value[..|value| - 1]
  }

  /** Typing into the text box keeps the first `maxLen` characters (`slice(0, maxLen)`). */
  function Typed(text: string, maxLen: nat): (r: string)
    ensures |r| <= maxLen
    ensures |text| <= maxLen ==> r == text
    ensures |text| > maxLen ==> |r| == maxLen
    ensures r == text[..|r|]
  {
    if |text| <= maxLen then text else text[..maxLen]
  }

  /** Typing what the box already holds keeps it: the cut is idempotent. */
  lemma TypedIdempotent(text: string, maxLen: nat)
    ensures Typed(Typed(text, maxLen), maxLen) == Typed(text, maxLen)
  {
  }

  /** Whatever the pad does, a value within the cap stays within the cap, and `back` undoes
      a `push`. */
  lemma PadWithinCap(value: string, ch: char, maxLen: nat)
    requires |value| <= maxLen
    ensures Push(value, ch, maxLen).Some? ==>
              |Push(value, ch, maxLen).value| <= maxLen && Back(Push(value, ch, maxLen).value) == value
    ensures |Back(value)| <= maxLen
  {
    if |value| < maxLen {
      assert (value + [ch])[..|value|] == value;
    }
  }
}
